=== FILE: README.md ===
# A model of the tcp-pow protocol core

The server guards a "words of wisdom" quote service against floods with a
hashcash proof of work. The exchange has two legs, and each leg uses a fresh
TCP connection:

1. The client sends `RequestChallenge` (header 0) with a resource name. The
   server draws a random base64 salt and caches `salt + resource` with a
   time-to-live. It answers `ResponseChallenge` (header 1) carrying a JSON
   stamp: version 1, the configured difficulty, the issue time, the
   resource, the salt, and counter 0.
2. The client searches for a counter at which the SHA-1 hex digest of the
   stamp's text starts with the required number of `'0'` characters. It
   then sends `RequestResource` (header 2) with the solved stamp. The server
   accepts the stamp when:
   - its key is still cached;
   - it is recent enough;
   - the digest at the claimed counter has the zeros.

   It then deletes the key and answers `ResponseResource` (header 3) with
   a quote.

Messages travel as three newline-separated lines: header, resource,
payload.

The project models this in seven modules, one per concern:

- `Wrappers`: `Option` and `Result`.
- `GoLib`: the Go library functions the code depends on.
  - `strings.TrimSpace`, `Split` and `Join`.
  - `strconv.Atoi`, including its 64-bit range check.
  - The `%d` verb.
  - Truncating integer division.
- `Base64`: the standard encoding of section 4 of RFC 4648, as Go's
  `base64.StdEncoding` implements it.
- `Messages`: the wire codec of `util/message.go`.
- `ProofOfWork`: the hashcash engine of `util/proofofwork.go`.
- `Utils`: `SendMsg` framing and `GetRandSalt` from `util/utils.go`.
- `Server`: `ProcessRequest` from `server.go`, as a pure step.
  - It takes the request text, the clock reading, the configuration, the
    random source, the quote, the cache contents (every key the Redis
    database holds), the JSON codec and the digest function.
  - It returns a reply plus the new cache, a rejection plus the unchanged
    cache, a Go runtime panic, or a hang (a handler that never returns).

Some behaviours of the code are worth stating explicitly; the model follows
the code:

- **Header range.** Any integer `strconv.Atoi` accepts is a header,
  negative ones included.
- **Unknown protocol.** The "unknown protocol" error of `ParseMessage`
  cannot occur, because a split always has a first part.
- **No resource check.** The grant does not compare the stamp's resource
  with the request's resource line (`GrantIgnoresRequestResourceAndDifficulty`).
- **Difficulty from the stamp.** The grant reads the difficulty from the
  client's own stamp, so a stamp claiming zero zeros passes
  (`ZeroDifficultyGranted`).
- **Counter 0.** A claimed counter of 0 is checked like any other counter;
  there is no special case for it.
- **Age limit.** The limit is `HashcashDuration.Milliseconds() / 100`,
  which is ten times the configured duration in seconds
  (`LifetimeIsTenfoldDuration`).
- **Error messages.** A stale stamp produces the same "challenge not exists"
  error text as an unknown one. The model still tells the two apart as
  `ChallengeExpired` and `ChallengeUnknown`, because they are different
  branches of the code.
- **Missing keys.** The Redis wrapper reports a missing key as an error, so
  in the code an unknown stamp is rejected at server.go:143-145 rather than
  at 146-148. The model treats both as the single rejection
  `ChallengeUnknown`. util/redis.go is not part of this model.

## Model

| member | source | states |
|---|---|---|
| GoLib.TrimSpace | util/message.go:15 | the result has no white space at either end and is a contiguous slice of the input from which only white space was cut |
| GoLib.TrimSpaceIdempotent | util/message.go:15 | trimming twice is trimming once |
| GoLib.TrimSpaceAppendSpace | util/utils.go:32 | appending a white-space character does not change the trimmed text |
| GoLib.Split | util/message.go:18 | a split has at least one part and no part contains the separator |
| GoLib.JoinSplit | util/message.go:18-35 | joining the parts of a split with the same separator gives back the text |
| GoLib.Join | util/proofofwork.go:9 | splitting a join of one or more separator-free parts gives back the parts |
| GoLib.SplitSnoc | util/utils.go:32 | a separator at the end of a text adds exactly one empty last part to its split |
| GoLib.SplitAppend | util/message.go:18 | a separator after a separator-free prefix makes that prefix the first part and splits the rest on its own |
| GoLib.FirstField | util/message.go:18-23 | the first part is a separator-free prefix that ends at the end of the text or at a separator |
| GoLib.SplitHead | util/message.go:18-23 | the first part of a split is that prefix |
| GoLib.Itoa | util/message.go:11 | the `%d` numeral is non-empty, made of digits with an optional leading minus that appears exactly for negative numbers, and the digits have no leading zero unless the number is 0 |
| GoLib.Atoi | util/message.go:23-26 | the text is accepted exactly when it is an optional sign followed by at least one digit and the value it denotes fits in 64 bits; the result is then that value, negated for a leading minus |
| GoLib.AtoiRejectsNonNumeric | util/message.go:23-26 | a text that is empty or starts with neither a digit nor a sign is an error |
| GoLib.AtoiItoa | util/message.go:11-26 | `Atoi` reads back a printed numeral exactly when the number fits in 64 bits, and is an error otherwise |
| GoLib.ItoaInjective | util/message.go:11 | different numbers print differently |
| Messages.Stringify | util/message.go:10-12 | for a resource without a newline, the lines of the text are the header numeral, the resource and then the payload's lines |
| Messages.ParseMessage | util/message.go:14-39 | decoding fails, with the header error, exactly when the first line of the trimmed text is not an integer; on success the header is that integer and the trimmed text is the header line, then the resource line if present, then the payload as the whole remainder |
| Messages.SplitLayout | util/message.go:18-36 | the text is recovered from its first part, its second part and the rejoined remainder, for one, two or more parts |
| Messages.NonNumericHeaderRejected | util/message.go:23-26 | a text whose first non-blank character is neither a digit nor a sign is rejected with the header error |
| Messages.ParseDependsOnTrimOnly | util/message.go:15 | texts with the same trimmed form decode alike |
| Messages.ParseIgnoresSurroundingSpace | util/message.go:15 | white space around a message does not change its decoding |
| Messages.MissingLinesAreEmpty | util/message.go:27-36 | missing resource or payload lines decode as empty strings |
| Messages.RoundTrip | util/message.go:10-39 | a stringified message decodes to itself if and only if it is transmittable: a 64-bit header, a resource without a newline, and no white space at the end of the last non-empty field |
| Messages.LaidOutTrimmedEnds | util/message.go:14-39 | a decoded message whose layout is a trimmed text has no trailing white space in its last non-empty field |
| Utils.SendMsg | util/utils.go:31-35 | the bytes written end in a newline and their lines are those of the stringified message plus exactly one empty last line, so exactly one newline is added; they trim to the same text as the stringified message |
| Utils.SendMsgRoundTrip | util/utils.go:31-35 | the framing newline does not change decoding, so a framed message comes back intact exactly when it is transmittable |
| Utils.RandomBuffer | util/utils.go:41-42 | the buffer holds exactly the requested number of generator bytes |
| Utils.GetRandSalt | util/utils.go:40-48 | a failed read is the only error; a salt has exactly the requested length, is a prefix of the base64 encoding of the random buffer, and holds only alphabet characters, no padding |
| Base64.Sextet | util/utils.go:46 | each six-bit value maps to an alphabet character |
| Base64.SextetValueOfSextet | util/utils.go:46 | the alphabet mapping is invertible |
| Base64.Encode | util/utils.go:46 | the encoding of n bytes has 4·⌈n/3⌉ characters; exactly the first ⌈4n/3⌉ are alphabet characters and the rest are padding |
| Base64.DecodeBlockOfEncodeBlock | util/utils.go:46 | a full three-byte group decodes back |
| Base64.DecodeEncodeShort | util/utils.go:46 | a final padded group of one or two bytes decodes back |
| Base64.DecodeEncode | util/utils.go:46 | decoding undoes encoding, for every byte sequence |
| ProofOfWork.ItoaHasNoColon | util/proofofwork.go:9 | a numeral never contains the field separator |
| ProofOfWork.Stringify | util/proofofwork.go:8-10 | when resource and salt hold no colon, the stamp text splits back into its seven fields: version, difficulty, date, resource, an empty fifth (extension) field, salt and counter |
| ProofOfWork.StringifyCounterInjective | util/proofofwork.go:8-10 | stamp texts that differ only in the counter differ, so each counter is hashed over its own text |
| ProofOfWork.AllZeros | util/proofofwork.go:24-28 | the loop accepts exactly the strings made only of `'0'` |
| ProofOfWork.IsHashCorrect | util/proofofwork.go:20-30 | a digest passes exactly when it is at least as long as the difficulty and its first that many characters are `'0'` |
| ProofOfWork.ZeroDifficultyAlwaysPasses | util/proofofwork.go:20-30 | every digest passes at difficulty 0 |
| ProofOfWork.IsHashCorrectMonotone | util/proofofwork.go:20-30 | a digest that passes a difficulty passes every lower one |
| ProofOfWork.ComputeHashcash | util/proofofwork.go:33-43 | the search changes only the counter; a success lies between the start and the bound and its digest passes; every counter skipped fails; a failure ends just past the bound, or at the start if the start was already past it |
| ProofOfWork.SearchFailsIffNoPassingCounter | util/proofofwork.go:33-43 | the search fails exactly when no counter from the start to the bound passes |
| ProofOfWork.PassesAtIgnoresCounter | util/proofofwork.go:34-40 | whether the stamp passes at a counter does not depend on the counter it started with |
| ProofOfWork.RunComputeHashcash | util/proofofwork.go:33-43 | with 64-bit counters: the loop never returns exactly when the bound is `MaxInt64` and no 64-bit counter passes; otherwise it returns the stamp with only its counter changed to a 64-bit value, passing if found; it fails exactly when the bound is below `MaxInt64` and no counter from the start to the bound passes; below `MaxInt64` it is the unbounded search |
| ProofOfWork.WrapCoversAllCounters | util/proofofwork.go:34-40 | no 64-bit counter passes exactly when none from the start up to `MaxInt64` and none from `MinInt64` up to just below the start passes |
| ProofOfWork.CheckClaimedCounter | util/proofofwork.go:33-43 | run with the claimed counter as its bound: below `MaxInt64` it returns and succeeds exactly when the digest at that counter passes; a passing counter is returned unchanged; a failing claim of `MaxInt64` never returns exactly when no 64-bit counter passes |
| ProofOfWork.SolutionPassesCheck | util/proofofwork.go:33-43 | a solution found by a search with 64-bit bounds has a 64-bit counter, and checked with that counter as the bound it returns at once as found |
| Server.ChallengeLifetime | server.go:151 | the age limit is the number of whole tenths of a second in the configured duration, counted toward zero |
| Server.LifetimeIsTenfoldDuration | server.go:151 | for a duration of whole seconds, the age limit is ten times that many seconds |
| Server.Expire | server.go:109 | expiry removes exactly the given key |
| Server.IssueChallenge | server.go:102-131 | a negative salt length panics; a failed random read is rejected with the cache unchanged; otherwise the reply has the challenge header and the request's resource, and the cache gains one key made of a salt of the configured length and the resource |
| Server.IssuedStamp | server.go:104-129 | the issued payload decodes to version 1, the configured difficulty, the current time, the resource, the drawn salt and counter 0, and the cache gains that salt followed by the resource |
| Server.GrantResource | server.go:133-165 | each rejection (unreadable payload or a number beyond 64 bits, unknown key, stale date, failing digest at a claimed counter below `MaxInt64`) happens exactly under its condition and leaves the cache unchanged; a negative claimed difficulty panics; a failing claim of `MaxInt64` hangs when no 64-bit counter passes and is granted otherwise; a reply carries the quote and removes that key |
| Server.GrantAccepted | server.go:133-165 | a decodable, cached, fresh stamp with a passing digest buys the quote and uses up its key |
| Server.GrantReadsOnlyDuration | server.go:133-165 | of the configuration the grant depends only on the duration |
| Server.Dispatch | server.go:100-169 | an unknown header is rejected; a rejection keeps the cache; a challenge reply adds one salted key and a grant removes one cached key |
| Server.ProcessRequest | server.go:91-99 | a request that does not parse panics; the cache effects of every outcome are as for the dispatch |
| Server.UnknownHeaderRejected | server.go:167-168 | a parsed request with any header other than 0 and 2 is refused and the cache is unchanged |
| Server.ChallengeIssued | server.go:102-131 | a challenge request gets a reply with header 1 and its resource; the payload decodes to a version 1 stamp with the configured difficulty, the current time, that resource, a salt of the configured length in the base64 alphabet, and counter 0; the cache gains exactly that stamp's key |
| Server.UnknownChallengeRejected | server.go:142-148 | a stamp whose key is not cached (for instance expired or used) is refused and the cache is unchanged |
| Server.StaleChallengeRejected | server.go:150-153 | a cached stamp older than the age limit is refused whatever its proof |
| Server.ReplayRejected | server.go:142-164 | after a stamp has bought the quote, the same payload is refused at any later time |
| Server.ExpiredChallengeRejected | server.go:142-148 | once the cache has let a key expire, its stamp is refused |
| Server.SolvedStampGranted | server.go:133-165 | an issued stamp with 64-bit fields, solved and sent back within the age limit, is read back whole and buys the quote, removing its key |
| Server.IssueThenRedeem | server.go:102-165 | the issued stamp with only its counter changed to a passing one, sent back within the age limit, buys the quote and removes exactly the key issuance stored |
| Server.HonestClientGranted | server.go:102-165 | a client that finds a solution by the bounded search and sends it back within the age limit is granted the quote |
| Server.GrantIgnoresRequestResourceAndDifficulty | server.go:133-165 | two resource requests with the same payload are handled alike, whatever their resource lines and whatever the configured difficulty, salt length and search bound |
| Server.ZeroDifficultyGranted | server.go:155 | a cached, fresh stamp that claims difficulty 0 is granted whatever its digest |
| Server.MalformedRequestPanics | server.go:92-93 | the request `hello` does not parse, and the handler as written panics on it |
| Server.GrantResourceChecked | server.go:133-165 | the grant with the claimed counter checked alone never hangs; it replies exactly when the stamp is readable, cached, fresh, of non-negative difficulty and passes at its claimed counter; a readable stamp whose key is not cached is refused as unknown; it agrees with `GrantResource` except on a claimed counter of `MaxInt64`, and refuses where that one hangs |
| Server.DispatchChecked | server.go:100-169 | the header switch with the corrected grant never hangs and differs from `Dispatch` only on a resource request whose readable stamp claims counter `MaxInt64` |
| Server.ProcessRequestChecked | server.go:91-169 | a request that does not parse is refused with the cache unchanged; the handler never hangs; a panic happens only on a request that parses; a parsed request is handled exactly as by `ProcessRequest` unless it is a resource request whose readable stamp claims counter `MaxInt64` |
| Server.MalformedRequestRefused | server.go:92-99 | with the parse error checked first, the request `hello` is refused and the cache is unchanged |
| Server.NoCounterBeatsDigestLength | util/proofofwork.go:20-30 | a difficulty longer than every digest is met at no 64-bit counter |
| Server.MaximalCounterHangs | server.go:155 | a cached, fresh stamp claiming counter `MaxInt64` and 41 zeros, with 40-character digests, makes the handler as written hang |
| Server.MaximalCounterRefused | server.go:155 | with the claimed counter checked alone, the same request is refused and the cache is unchanged |
| Server.InitialCache | util/redis.go:12-26 | the store `InitRedisCache` leaves holds the key of a stamp that was never issued |
| Server.InitialCacheChecked | util/redis.go:20 | a start-up that leaves no test entry gives a store holding no stamp's key |
| Server.StartupKeyGranted | util/redis.go:20 | as written, a never-issued stamp with salt `key`, empty resource, zero difficulty and a recent date buys the quote from the start-up store, which is then empty |
| Server.NoGrantFromCleanStart | server.go:142-148 | from a store holding no stamp's key, no request to the corrected handler buys the quote |
| Server.StartupKeyRefused | server.go:142-148 | from that store, the same never-issued stamp is refused as unknown and the store stays empty |

## Findings

| source | as written | input that shows it | evidently intended | confidence | as-written member | corrected member |
|---|---|---|---|---|---|---|
| server.go:92-99 | `msg.Resource` is read at line 93, before `err` is checked at line 97, and `ParseMessage` returns a nil message with its error | any request whose first line is not an integer, e.g. `hello` | return the parse error, so the connection closes without a reply | high (not executed) | Server.MalformedRequestPanics | Server.ProcessRequestChecked |
| server.go:155 | the claimed counter is checked by `ComputeHashcash(hashcash.Counter)`; for a claim of `MaxInt64` whose digest fails, `h.Counter++` wraps to `MinInt64` and `h.Counter <= maxIterations` stays true, so the loop searches the whole `int` range | a cached, fresh stamp with `Counter` 9223372036854775807 and `ZerosCount` 41; a 40-character SHA-1 hex digest never has 41 zeros, so the handler never returns | refuse the stamp when the digest at the claimed counter fails | high (not executed) | Server.MaximalCounterHangs | Server.GrantResourceChecked |
| util/redis.go:20 | `InitRedisCache` tests the connection by storing the key `"key"` with no expiry in the database that holds the challenge keys, and `Get` then reports it present | a resource request with a never-issued stamp: salt `key`, resource empty, difficulty 0, date now; its key `key` is found at server.go:142, the date passes at 151 and difficulty 0 passes at 155, so the quote is granted without work, once per server start | leave no redeemable entry behind, so that every key the server finds was issued by a challenge | high (not executed) | Server.StartupKeyGranted | Server.InitialCacheChecked |

`ProcessRequestChecked` mends the first two: it agrees with `ProcessRequest` on every
request that parses, except a resource request whose stamp claims counter
`MaxInt64`, where it uses `GrantResourceChecked`. So the properties proved
above for parsed requests hold for the corrected handler as well, apart from
that one counter. The third is mended at start-up: from `InitialCacheChecked`
no request buys the quote until a challenge has been issued
(`NoGrantFromCleanStart`).

## Left out

- Networking is not modelled: `main`, `runServer`, `handleConnectionServer` and the whole client program (`client.go`). Each is I/O around the step that `ProcessRequest` models. The server takes the request from a single `Read` of at most 10000 bytes (server.go:67-68); the model assumes the whole request arrives in that one read.
- Concurrency is not modelled. Each connection is served by its own goroutine (server.go:56), and the cache lookup (server.go:142) and the delete (server.go:164) are separate Redis calls with the `GetQuote` HTTPS call between them. `ProcessRequest` is modelled as one atomic step on the cache, so Server.ReplayRejected covers replays handled one after another only: two simultaneous redemptions of one solved stamp can both pass the lookup and both be granted, which a sequential model cannot express.
- The Redis wrapper is not modelled. The cache is the set of keys the database holds, and `Expire` is the time-to-live firing. The store contents before a request are a parameter; the source's store starts with the test entry `"key"`, which `InitialCache` models, and whatever else the database already held is not modelled. Redis errors on add and get, and the ignored error of the delete, are not modelled.
- `LoadConfig` (YAML and environment reading) is not modelled. The configuration is a parameter.
- `GetQuote` (an HTTPS call) is not modelled. The quote is a parameter.
- `makehash` (SHA-1 printed in hex) is a parameter `hash`. Properties that depend on it hold for every digest function.
- `encoding/json` is a parameter codec. Lemmas that need a decoded stamp to equal the encoded one assume only that unmarshalling undoes marshalling (`Lossless`).
- `math/rand` is not modelled. Its output is a parameter stream of bytes or a read failure. The source uses this non-cryptographic generator, whose `Read` never returns an error, so the read-failure path (util/utils.go:43-45, the model's `ReadFailure` and `SaltUnavailable`) is dead code in the source; the model keeps it because the code handles it.
- `time.Now` is not modelled. The clock reading is a parameter `now`, in Unix seconds.
- The write error of `SendMsg` is not modelled. The model's result is the bytes written.
- Non-ASCII white space (Unicode spaces that `strings.TrimSpace` also removes) is not modelled. Strings are sequences of characters with ASCII white space only.
- Logging (`fmt.Printf`, `fmt.Println`) is not modelled.
- ProofOfWork.ComputeHashcash: models the loop with unbounded integers, which is Go's loop for every bound below `MaxInt64`. The wrap-around of `h.Counter++` at a bound of `MaxInt64` is modelled separately by `ProofOfWork.RunComputeHashcash`, which the server uses.
- ProofOfWork.SearchFailsIffNoPassingCounter: is about the unbounded search. For a bound of `MaxInt64` Go's loop does not fail but hangs, which `ProofOfWork.RunComputeHashcash` states.
- Server.ReadStamp: `encoding/json` refusing a number that overflows an `int` field is modelled as an unreadable payload. Other Go unmarshal quirks are left to the codec parameter.
- Server.GrantResource: the subtraction `now - Date` is unbounded, so its 64-bit overflow for a forged date near `MinInt64` is not modelled.
- Utils.GetRandSalt: requires a non-negative length. In Go a negative length panics in `make`, and that panic is modelled one level up in `Server.IssueChallenge`.

=== FILE: base64.dfy ===
/** The standard base64 encoding of section 4 of RFC 4648 (the encoding Go's
    `base64.StdEncoding` implements): every three bytes become four
    characters of the 64-character alphabet, and a final group of one or
    two bytes is padded with `=`. */
module Base64 {
  import opened Wrappers

  type byte = x: int | 0 <= x < 256

  /** The characters of the alphabet of Table 1 of RFC 4648. */
  predicate IsAlphabetChar(c: char) {
    ('A' <= c <= 'Z') || ('a' <= c <= 'z') || ('0' <= c <= '9') || c == '+' || c == '/'
  }

  const Padding: char := '='

  /** The alphabet character that encodes the six-bit value `v`. */
  function Sextet(v: int): (c: char)
    requires 0 <= v < 64
    ensures IsAlphabetChar(c)
  {
    if v < 26 then ('A' as int + v) as char
    else if v < 52 then ('a' as int + (v - 26)) as char
    else if v < 62 then ('0' as int + (v - 52)) as char
    else if v == 62 then '+'
    else '/'
  }

  /** The six-bit value an alphabet character stands for. */
  function SextetValue(c: char): (v: int)
    requires IsAlphabetChar(c)
    ensures 0 <= v < 64
  {
    if 'A' <= c <= 'Z' then c as int - 'A' as int
    else if 'a' <= c <= 'z' then c as int - 'a' as int + 26
    else if '0' <= c <= '9' then c as int - '0' as int + 52
    else if c == '+' then 62
    else 63
  }

  lemma SextetValueOfSextet(v: int)
    requires 0 <= v < 64
    ensures SextetValue(Sextet(v)) == v
  {
  }

  /** Three bytes as four characters: the 24 bits cut into four sextets,
      most significant first. */
  function EncodeBlock(b0: byte, b1: byte, b2: byte): string {
    [Sextet(b0 / 4), Sextet((b0 % 4) * 16 + b1 / 16), Sextet((b1 % 16) * 4 + b2 / 64), Sextet(b2 % 64)]
  }

  /** The number of alphabet characters (before padding) in the encoding
      of `n` bytes: 4n/3 rounded up. */
  function DataLength(n: nat): nat {
    (4 * n + 2) / 3
  }

  /** `base64.StdEncoding.EncodeToString`. The encoding of n bytes has
      4 * ceil(n/3) characters, of which the first DataLength(n) are
      alphabet characters and the rest are padding. */
  function Encode(bs: seq<byte>): (s: string)
    ensures |s| == 4 * ((|bs| + 2) / 3)
    ensures forall i :: 0 <= i < |s| ==> (IsAlphabetChar(s[i]) <==> i < DataLength(|bs|))
    ensures forall i :: 0 <= i < |s| ==> IsAlphabetChar(s[i]) || s[i] == Padding
  {
    if |bs| == 0 then ""
    else if |bs| == 1 then
      [Sextet(bs[0] / 4), Sextet((bs[0] % 4) * 16), Padding, Padding]
    else if |bs| == 2 then
      [Sextet(bs[0] / 4), Sextet((bs[0] % 4) * 16 + bs[1] / 16), Sextet((bs[1] % 16) * 4), Padding]
    else
      EncodeBlock(bs[0], bs[1], bs[2]) + Encode(bs[3..])
  }

  /** Decodes one group of four characters, which may end in padding. */
  function DecodeQuad(q: string): Option<seq<byte>>
    requires |q| == 4
  {
    if IsAlphabetChar(q[0]) && IsAlphabetChar(q[1]) then
      var v0, v1 := SextetValue(q[0]), SextetValue(q[1]);
      var b0 := v0 * 4 + v1 / 16;
      if IsAlphabetChar(q[2]) && IsAlphabetChar(q[3]) then
        var v2, v3 := SextetValue(q[2]), SextetValue(q[3]);
        Some([b0, (v1 % 16) * 16 + v2 / 4, (v2 % 4) * 64 + v3])
      else if IsAlphabetChar(q[2]) && q[3] == Padding then
        var v2 := SextetValue(q[2]);
        Some([b0, (v1 % 16) * 16 + v2 / 4])
      else if q[2] == Padding && q[3] == Padding then
        Some([b0])
      else None
    else None
  }

  /** Decoding of padded base64 text: groups of four characters, padding
      only in the last group. */
  function Decode(s: string): Option<seq<byte>>
  {
    if |s| == 0 then Some([])
    else if |s| < 4 then None
    else
      match DecodeQuad(s[..4])
      case None => None
      case Some(head) =>
        if |s| == 4 then Some(head)
        else if |head| < 3 then None
        else
          match Decode(s[4..])
          case None => None
          case Some(tail) => Some(head + tail)
  }

  lemma DecodeBlockOfEncodeBlock(b0: byte, b1: byte, b2: byte)
    ensures DecodeQuad(EncodeBlock(b0, b1, b2)) == Some([b0, b1, b2])
  {
    var v0, v1, v2, v3 := b0 / 4, (b0 % 4) * 16 + b1 / 16, (b1 % 16) * 4 + b2 / 64, b2 % 64;
    SextetValueOfSextet(v0);
    SextetValueOfSextet(v1);
    SextetValueOfSextet(v2);
    SextetValueOfSextet(v3);
    assert v1 / 16 == b0 % 4 && v1 % 16 == b1 / 16;
    assert v2 / 4 == b1 % 16 && v2 % 4 == b2 / 64;
  }

  lemma DecodeOfEncodeOne(b0: byte)
    ensures DecodeQuad(Encode([b0])) == Some([b0])
  {
    var v0, v1 := b0 / 4, (b0 % 4) * 16;
    SextetValueOfSextet(v0);
    SextetValueOfSextet(v1);
    assert v1 / 16 == b0 % 4;
  }

  lemma DecodeOfEncodeTwo(b0: byte, b1: byte)
    ensures DecodeQuad(Encode([b0, b1])) == Some([b0, b1])
  {
    var v0, v1, v2 := b0 / 4, (b0 % 4) * 16 + b1 / 16, (b1 % 16) * 4;
    SextetValueOfSextet(v0);
    SextetValueOfSextet(v1);
    SextetValueOfSextet(v2);
    assert v1 / 16 == b0 % 4 && v1 % 16 == b1 / 16;
    assert v2 / 4 == b1 % 16;
  }

  /** A full leading group decodes in front of the rest. */
  lemma DecodeAppendQuad(q: string, t: string)
    requires |q| == 4 && DecodeQuad(q).Some? && |DecodeQuad(q).value| == 3
    requires Decode(t).Some?
    ensures Decode(q + t) == Some(DecodeQuad(q).value + Decode(t).value)
  {
    var s := q + t;
    assert s[..4] == q;
    if |t| == 0 {
      assert s == q;
      assert DecodeQuad(q).value + Decode(t).value == DecodeQuad(q).value;
    } else {
      assert s[4..] == t;
    }
  }

  /** A lone group of four characters decodes as that group. */
  lemma DecodeOneQuad(q: string)
    requires |q| == 4
    ensures Decode(q) == DecodeQuad(q)
  {
    assert q[..4] == q;
  }

  lemma DecodeEncodeOne(b0: byte)
    ensures Decode(Encode([b0])) == Some([b0])
  {
    DecodeOneQuad(Encode([b0]));
    DecodeOfEncodeOne(b0);
  }

  lemma DecodeEncodeTwo(b0: byte, b1: byte)
    ensures Decode(Encode([b0, b1])) == Some([b0, b1])
  {
    DecodeOneQuad(Encode([b0, b1]));
    DecodeOfEncodeTwo(b0, b1);
  }

  lemma DecodeEncodeShort(bs: seq<byte>)
    requires 1 <= |bs| <= 2
    ensures Decode(Encode(bs)) == Some(bs)
  {
    if |bs| == 1 {
      assert bs == [bs[0]];
      DecodeEncodeOne(bs[0]);
    } else {
      assert bs == [bs[0], bs[1]];
      DecodeEncodeTwo(bs[0], bs[1]);
    }
  }

  lemma EncodeLong(bs: seq<byte>)
    requires |bs| >= 3
    ensures Encode(bs) == EncodeBlock(bs[0], bs[1], bs[2]) + Encode(bs[3..])
  {
  }

  /** Decoding undoes encoding. */
  lemma {:induction false} DecodeEncode(bs: seq<byte>)
    ensures Decode(Encode(bs)) == Some(bs)
    decreases |bs|
  {
    if 1 <= |bs| <= 2 {
      DecodeEncodeShort(bs);
    } else if |bs| >= 3 {
      var q := EncodeBlock(bs[0], bs[1], bs[2]);
      DecodeBlockOfEncodeBlock(bs[0], bs[1], bs[2]);
      DecodeEncode(bs[3..]);
      EncodeLong(bs);
      DecodeAppendQuad(q, Encode(bs[3..]));
      assert bs == [bs[0], bs[1], bs[2]] + bs[3..];
    }
  }
}

=== FILE: golib.dfy ===
/** The small part of Go's standard library that the protocol code leans on:
    `strings.TrimSpace`, `strings.Split`, `strings.Join`, `strconv.Atoi`,
    the `%d` verb of `fmt`, and Go's truncating integer division.
    Strings are sequences of characters; only ASCII white space is modelled. */
module GoLib {
  import opened Wrappers

  const MinInt64: int := -0x8000_0000_0000_0000
  const MaxInt64: int := 0x7fff_ffff_ffff_ffff

  /** Values of Go's `int` (64 bits on the platforms the program targets). */
  predicate InInt64(x: int) {
    MinInt64 <= x <= MaxInt64
  }

  // ---------------------------------------------------------------------
  // Integer division

  /** Go's `/` on integers: the quotient is truncated toward zero, unlike
      Dafny's Euclidean `/`. */
  function Quot(a: int, b: int): int
    requires b != 0
  {
    var q0 := Abs(a) / Abs(b);
    if (a < 0) == (b < 0) then q0 else -q0
  }

  function Abs(x: int): nat {
    if x < 0 then -x else x
  }

  /** Nanoseconds to milliseconds, then to tenths of a second, is
      nanoseconds to tenths of a second. */
  lemma TenthsOfSecond(d: nat)
    ensures d / 1_000_000 / 100 == d / 100_000_000
  {
    var q := d / 100_000_000;
    var r := d % 100_000_000;
    assert d == (q * 100 + r / 1_000_000) * 1_000_000 + r % 1_000_000;
    assert d / 1_000_000 == q * 100 + r / 1_000_000;
  }

  /** The ASCII characters `unicode.IsSpace` accepts. */
  predicate IsSpace(c: char) {
    c == ' ' || c == '\t' || c == '\n' || c == '\r' || c == '\U{000B}' || c == '\U{000C}'
  }

  predicate AllSpace(s: string) {
    forall i :: 0 <= i < |s| ==> IsSpace(s[i])
  }

  /** `s` neither begins nor ends with white space. */
  predicate Trimmed(s: string) {
    |s| == 0 || (!IsSpace(s[0]) && !IsSpace(s[|s| - 1]))
  }

  /** Drops the leading white space: the result is the suffix of `s` that
      starts at its first non-space character. */
  function TrimLeft(s: string): (r: string)
    ensures |r| <= |s| && r == s[|s| - |r|..]
    ensures AllSpace(s[..|s| - |r|])
    ensures |r| == 0 || !IsSpace(r[0])
  {
    if |s| > 0 && IsSpace(s[0]) then TrimLeft(s[1..]) else s
  }

  /** Drops the trailing white space: the result is the prefix of `s` that
      ends at its last non-space character. */
  function TrimRight(s: string): (r: string)
    ensures |r| <= |s| && r == s[..|r|]
    ensures AllSpace(s[|r|..])
    ensures |r| == 0 || !IsSpace(r[|r| - 1])
  {
    if |s| > 0 && IsSpace(s[|s| - 1]) then TrimRight(s[..|s| - 1]) else s
  }

  /** `r` is what is left of `s` at offset `i` once white space is cut
      from both ends. */
  predicate IsTrimAt(s: string, r: string, i: int) {
    && 0 <= i <= |s| - |r|
    && r == s[i..i + |r|]
    && AllSpace(s[..i])
    && AllSpace(s[i + |r|..])
  }

  /** `strings.TrimSpace`: the infix of `s` left after removing white space
      from both ends. */
  function TrimSpace(s: string): (r: string)
    ensures Trimmed(r)
    ensures exists i :: IsTrimAt(s, r, i)
  {
    TrimBothEnds(s);
    TrimRight(TrimLeft(s))
  }

  lemma TrimBothEnds(s: string)
    ensures IsTrimAt(s, TrimRight(TrimLeft(s)), |s| - |TrimLeft(s)|)
  {
    var l := TrimLeft(s);
    var r := TrimRight(l);
    var i := |s| - |l|;
    SliceOfSuffix(s, i, |r|);
    assert AllSpace(s[i + |r|..]) by {
      assert s[i + |r|..] == l[|r|..];
    }
  }

  /** Slicing a suffix slices the whole. */
  lemma SliceOfSuffix(s: string, i: nat, n: nat)
    requires i + n <= |s|
    ensures s[i..][..n] == s[i..i + n]
    ensures s[i..][n..] == s[i + n..]
  {
  }

  lemma TrimLeftOfTrimmed(s: string)
    requires |s| == 0 || !IsSpace(s[0])
    ensures TrimLeft(s) == s
  {
  }

  lemma TrimRightOfTrimmed(s: string)
    requires |s| == 0 || !IsSpace(s[|s| - 1])
    ensures TrimRight(s) == s
  {
  }

  /** A string without white space at either end is its own trim. */
  lemma TrimSpaceOfTrimmed(s: string)
    requires Trimmed(s)
    ensures TrimSpace(s) == s
  {
    TrimLeftOfTrimmed(s);
    TrimRightOfTrimmed(s);
  }

  /** `strings.TrimSpace` is idempotent. */
  lemma TrimSpaceIdempotent(s: string)
    ensures TrimSpace(TrimSpace(s)) == TrimSpace(s)
  {
    TrimSpaceOfTrimmed(TrimSpace(s));
  }

  /** White space appended at the end is removed again by `TrimRight`. */
  lemma {:induction false} TrimRightDropsSpace(s: string, w: string)
    requires AllSpace(w)
    ensures TrimRight(s + w) == TrimRight(s)
    decreases |w|
  {
    if |w| > 0 {
      var w' := w[..|w| - 1];
      assert (s + w)[..|s + w| - 1] == s + w';
      TrimRightDropsSpace(s, w');
    } else {
      assert s + w == s;
    }
  }

  lemma {:induction false} TrimLeftAppend(s: string, c: char)
    ensures TrimLeft(s + [c]) == if TrimLeft(s) == "" then TrimLeft([c]) else TrimLeft(s) + [c]
    decreases |s|
  {
    if |s| > 0 {
      assert (s + [c])[0] == s[0];
      if IsSpace(s[0]) {
        assert (s + [c])[1..] == s[1..] + [c];
        TrimLeftAppend(s[1..], c);
      }
    } else {
      assert s + [c] == [c];
    }
  }

  /** A trailing white-space character never changes `strings.TrimSpace`. */
  lemma TrimSpaceAppendSpace(s: string, c: char)
    requires IsSpace(c)
    ensures TrimSpace(s + [c]) == TrimSpace(s)
  {
    TrimLeftAppend(s, c);
    if TrimLeft(s) != "" {
      TrimRightDropsSpace(TrimLeft(s), [c]);
    }
  }

  // ---------------------------------------------------------------------
  // strings.Split and strings.Join on a single-character separator

  /** `strings.Split(s, sep)`: the maximal separator-free pieces of `s`, in
      order. The empty string yields one empty piece, so the result is
      never empty. */
  function Split(s: string, sep: char): (parts: seq<string>)
    ensures |parts| >= 1
    ensures forall i :: 0 <= i < |parts| ==> sep !in parts[i]
  {
    if |s| == 0 then [""]
    else
      var rest := Split(s[1..], sep);
      if s[0] == sep then [""] + rest
      else [[s[0]] + rest[0]] + rest[1..]
  }

  /** No piece holds the separator. */
  predicate SeparatorFree(parts: seq<string>, sep: char) {
    forall i :: 0 <= i < |parts| ==> sep !in parts[i]
  }

  /** `strings.Join`. Splitting the join of separator-free pieces gives
      back the pieces. */
  function Join(parts: seq<string>, sep: char): (s: string)
    ensures |parts| >= 1 && SeparatorFree(parts, sep) ==> Split(s, sep) == parts
  {
    if |parts| == 0 then ""
    else if |parts| == 1 then
      if sep !in parts[0] then SplitNoSeparator(parts[0], sep); parts[0] else parts[0]
    else
      var rest := Join(parts[1..], sep);
      if sep !in parts[0] then
        SplitAppend(parts[0], sep, rest);
        assert [parts[0]] + parts[1..] == parts;
        parts[0] + [sep] + rest
      else parts[0] + [sep] + rest
  }

  /** Appending a piece appends a separator and the piece. */
  lemma {:induction false} JoinSnoc(parts: seq<string>, last: string, sep: char)
    requires |parts| >= 1
    ensures Join(parts + [last], sep) == Join(parts, sep) + [sep] + last
    decreases |parts|
  {
    if |parts| > 1 {
      assert (parts + [last])[1..] == parts[1..] + [last];
      JoinSnoc(parts[1..], last, sep);
    }
  }

  /** Joining the pieces of a split gives back the original string. */
  lemma {:induction false} JoinSplit(s: string, sep: char)
    ensures Join(Split(s, sep), sep) == s
    decreases |s|
  {
    if |s| > 0 {
      var rest := Split(s[1..], sep);
      JoinSplit(s[1..], sep);
      if s[0] == sep {
        assert ([""] + rest)[1..] == rest;
      } else {
        var parts := [[s[0]] + rest[0]] + rest[1..];
        if |rest| > 1 {
          assert parts[1..] == rest[1..];
          assert s == [s[0]] + s[1..];
        }
      }
    }
  }

  /** A string that holds a separator splits into its first piece followed
      by the pieces of the remainder. */
  lemma {:induction false} SplitAppend(a: string, sep: char, b: string)
    requires sep !in a
    ensures Split(a + [sep] + b, sep) == [a] + Split(b, sep)
    decreases |a|
  {
    if |a| == 0 {
      assert a + [sep] + b == [sep] + b;
      assert ([sep] + b)[1..] == b;
    } else {
      assert (a + [sep] + b)[1..] == a[1..] + [sep] + b;
      SplitAppend(a[1..], sep, b);
      assert [a[0]] + a[1..] == a;
    }
  }

  /** A separator at the end adds one empty piece. */
  lemma {:induction false} SplitSnoc(s: string, sep: char)
    ensures Split(s + [sep], sep) == Split(s, sep) + [""]
    decreases |s|
  {
    if |s| == 0 {
      assert [sep][1..] == "";
    } else {
      assert (s + [sep])[1..] == s[1..] + [sep];
      SplitSnoc(s[1..], sep);
    }
  }

  /** A separator-free string is a single piece. */
  lemma {:induction false} SplitNoSeparator(a: string, sep: char)
    requires sep !in a
    ensures Split(a, sep) == [a]
    decreases |a|
  {
    if |a| > 0 {
      SplitNoSeparator(a[1..], sep);
      assert [a[0]] + a[1..] == a;
    }
  }

  /** The text before the first separator (all of `s` when there is none). */
  function FirstField(s: string, sep: char): (f: string)
    ensures sep !in f && f <= s
    ensures |f| == |s| || s[|f|] == sep
  {
    if |s| == 0 || s[0] == sep then "" else [s[0]] + FirstField(s[1..], sep)
  }

  /** The first piece of a split is the first field. */
  lemma {:induction false} SplitHead(s: string, sep: char)
    ensures Split(s, sep)[0] == FirstField(s, sep)
    decreases |s|
  {
    if |s| > 0 && s[0] != sep {
      SplitHead(s[1..], sep);
    }
  }

  // ---------------------------------------------------------------------
  // Decimal numerals: fmt's %d and strconv.Atoi

  predicate IsDigit(c: char) {
    '0' <= c <= '9'
  }

  predicate AllDigits(s: string) {
    forall i :: 0 <= i < |s| ==> IsDigit(s[i])
  }

  function DigitChar(d: int): (c: char)
    requires 0 <= d < 10
    ensures IsDigit(c)
  {
    ('0' as int + d) as char
  }

  /** The value of a string of decimal digits (0 for the empty string). */
  function DecimalValue(s: string): nat
    requires AllDigits(s)
  {
    if |s| == 0 then 0 else DecimalValue(s[..|s| - 1]) * 10 + (s[|s| - 1] as int - '0' as int)
  }

  /** The shortest decimal numeral of `n`: digits only, no leading zero. */
  function NatToDecimal(n: nat): (s: string)
    ensures |s| > 0 && AllDigits(s)
    ensures |s| > 1 ==> s[0] != '0'
  {
    if n < 10 then [DigitChar(n)] else NatToDecimal(n / 10) + [DigitChar(n % 10)]
  }

  lemma {:induction false} DecimalValueOfNatToDecimal(n: nat)
    ensures DecimalValue(NatToDecimal(n)) == n
  {
    if n >= 10 {
      DecimalValueOfNatToDecimal(n / 10);
      var s := NatToDecimal(n);
      assert s[..|s| - 1] == NatToDecimal(n / 10);
    }
  }

  /** `fmt.Sprintf("%d", n)`: an optional minus sign followed by the
      shortest decimal numeral of `|n|`. */
  function Itoa(n: int): (s: string)
    ensures |s| > 0 && IsDigit(s[|s| - 1])
    ensures forall i :: 0 <= i < |s| ==> IsDigit(s[i]) || (i == 0 && s[i] == '-')
    ensures (s[0] == '-') <==> n < 0
    ensures var d := if n < 0 then s[1..] else s; |d| > 0 && (|d| > 1 ==> d[0] != '0')
  {
    if n < 0 then
      var s := "-" + NatToDecimal(-n);
      assert s[1..] == NatToDecimal(-n);
      s
    else NatToDecimal(n)
  }

  /** A numeral has no white space at either end. */
  lemma ItoaTrimmed(n: int)
    ensures Trimmed(Itoa(n))
  {
    var s := Itoa(n);
    assert IsDigit(s[0]) || s[0] == '-';
  }

  /** An optional `+` or `-` followed by at least one decimal digit. */
  predicate IsNumeral(s: string) {
    |s| > 0 && if s[0] == '+' || s[0] == '-' then |s| > 1 && AllDigits(s[1..]) else AllDigits(s)
  }

  /** The integer a numeral denotes. */
  function NumeralValue(s: string): int
    requires IsNumeral(s)
  {
    if s[0] == '-' then var d: int := DecimalValue(s[1..]); -d
    else if s[0] == '+' then DecimalValue(s[1..])
    else DecimalValue(s)
  }

  /** `strconv.Atoi`: an optional `+` or `-` followed by at least one decimal
      digit, whose value must fit in a Go `int`; anything else is an error. */
  function Atoi(s: string): (r: Option<int>)
    ensures r.Some? <==> IsNumeral(s) && InInt64(NumeralValue(s))
    ensures r.Some? ==> r.value == NumeralValue(s)
    ensures r.Some? ==> InInt64(r.value)
    ensures r.Some? ==> |s| > 0 && forall i :: 0 <= i < |s| ==> IsDigit(s[i]) || (i == 0 && (s[i] == '+' || s[i] == '-'))
  {
    if |s| > 1 && (s[0] == '+' || s[0] == '-') && AllDigits(s[1..]) then
      var d: int := DecimalValue(s[1..]);
      var v := if s[0] == '-' then -d else d;
      if InInt64(v) then Some(v) else None
    else if |s| > 0 && AllDigits(s) then
      var v := DecimalValue(s);
      if InInt64(v) then Some(v) else None
    else None
  }

  /** Text that does not start with a digit or a sign is not a number. */
  lemma AtoiRejectsNonNumeric(s: string)
    requires |s| == 0 || (!IsDigit(s[0]) && s[0] != '+' && s[0] != '-')
    ensures Atoi(s) == None
  {
  }

  /** `strconv.Atoi` reads back exactly the integers `%d` prints that fit in
      a Go `int`, and rejects the printed form of any other integer. */
  lemma AtoiItoa(n: int)
    ensures Atoi(Itoa(n)) == if InInt64(n) then Some(n) else None
  {
    if n < 0 {
      DecimalValueOfNatToDecimal(-n);
      assert Itoa(n)[1..] == NatToDecimal(-n);
    } else {
      DecimalValueOfNatToDecimal(n);
    }
  }

  /** Distinct integers print differently. */
  lemma ItoaInjective(a: int, b: int)
    requires Itoa(a) == Itoa(b)
    ensures a == b
  {
    assert (a < 0) == (b < 0);
    if a < 0 {
      assert NatToDecimal(-a) == Itoa(a)[1..] == Itoa(b)[1..] == NatToDecimal(-b);
      DecimalValueOfNatToDecimal(-a);
      DecimalValueOfNatToDecimal(-b);
    } else {
      DecimalValueOfNatToDecimal(a);
      DecimalValueOfNatToDecimal(b);
    }
  }
}

=== FILE: message.dfy ===
/** The wire codec of util/message.go: a message is three newline-separated
    fields, a decimal header, a resource and a payload; the payload keeps any
    newlines it holds because everything after the second line is joined
    back together on decoding. */
module Messages {
  import opened Wrappers
  import opened GoLib

  /** Header codes of the four protocol messages. */
  const RequestChallenge: int := 0
  const ResponseChallenge: int := 1
  const RequestResource: int := 2
  const ResponseResource: int := 3

  datatype Message = Message(Header: int, Resource: string, Payload: string)

  datatype ParseError =
    | UnknownProtocol  // the split produced no parts
    | BadHeader        // the first line is not an integer

  /** `Message.Stringify`: header in decimal, the resource and the payload,
      one per line, without a final newline. The lines of the result are the
      header numeral, the resource and then the lines of the payload. */
  function Stringify(m: Message): (s: string)
    ensures '\n' !in m.Resource ==> Split(s, '\n') == [Itoa(m.Header), m.Resource] + Split(m.Payload, '\n')
  {
    var h := Itoa(m.Header);
    var text := h + "\n" + (m.Resource + "\n" + m.Payload);
    assert text == h + "\n" + m.Resource + "\n" + m.Payload;
    if '\n' in m.Resource then text
    else
      SplitAppend(h, '\n', m.Resource + "\n" + m.Payload);
      SplitAppend(m.Resource, '\n', m.Payload);
      text
  }

  /** How the fields of `m` sit in the trimmed text `t`: the header line,
      then (when present) a newline-free resource line, then (when present)
      the payload, which is the whole remainder. */
  predicate LaidOut(t: string, m: Message) {
    var h := FirstField(t, '\n');
    && '\n' !in m.Resource
    && (|| (t == h && m.Resource == "" && m.Payload == "")
        || (t == h + "\n" + m.Resource && m.Payload == "")
        || t == h + "\n" + m.Resource + "\n" + m.Payload)
  }

  /** `ParseMessage`: trim the input, split it into lines, read the first
      line as the header and take the second line as the resource and all
      further lines, rejoined, as the payload. It fails exactly when the
      first line is not a decimal integer; the "unknown protocol" error is
      never produced, because a split always has a first part. */
  function ParseMessage(str: string): (r: Result<Message, ParseError>)
    ensures r.Failure? <==> Atoi(FirstField(TrimSpace(str), '\n')).None?
    ensures r.Failure? ==> r.error == BadHeader
    ensures r.Success? ==> Atoi(FirstField(TrimSpace(str), '\n')) == Some(r.value.Header)
    ensures r.Success? ==> LaidOut(TrimSpace(str), r.value)
  {
    ParseLines(TrimSpace(str))
  }

  /** The part of `ParseMessage` after trimming. */
  function ParseLines(s: string): (r: Result<Message, ParseError>)
    ensures r.Failure? <==> Atoi(FirstField(s, '\n')).None?
    ensures r.Failure? ==> r.error == BadHeader
    ensures r.Success? ==> Atoi(FirstField(s, '\n')) == Some(r.value.Header)
    ensures r.Success? ==> LaidOut(s, r.value)
  {
    var parts := Split(s, '\n');
    SplitHead(s, '\n');
    SplitLayout(s);
    if |parts| < 1 then
      Failure(UnknownProtocol)
    else
      match Atoi(parts[0])
      case None => Failure(BadHeader)
      case Some(header) =>
        Success(Message(header,
                        if |parts| > 1 then parts[1] else "",
                        if |parts| > 2 then Join(parts[2..], '\n') else ""))
  }

  /** The first lines of a split, put back together, give the string. */
  lemma SplitLayout(s: string)
    ensures var parts := Split(s, '\n');
      && (|parts| == 1 ==> s == parts[0])
      && (|parts| == 2 ==> s == parts[0] + "\n" + parts[1])
      && (|parts| > 2 ==> s == parts[0] + "\n" + parts[1] + "\n" + Join(parts[2..], '\n'))
  {
    var parts := Split(s, '\n');
    JoinSplit(s, '\n');
    if |parts| > 2 {
      assert parts[1..][1..] == parts[2..];
    }
  }

  /** A text whose first non-blank character is neither a digit nor a sign
      is rejected as having a bad header. */
  lemma NonNumericHeaderRejected(str: string)
    requires |TrimSpace(str)| > 0
    requires var c := TrimSpace(str)[0]; !IsDigit(c) && c != '+' && c != '-'
    ensures ParseMessage(str) == Failure(BadHeader)
  {
    var first := FirstField(TrimSpace(str), '\n');
    assert |first| == 0 || first[0] == TrimSpace(str)[0];
    AtoiRejectsNonNumeric(first);
  }

  /** Texts that trim to the same text decode alike. */
  lemma ParseDependsOnTrimOnly(s: string, t: string)
    requires TrimSpace(s) == TrimSpace(t)
    ensures ParseMessage(s) == ParseMessage(t)
  {
  }

  /** Decoding ignores white space around the text. */
  lemma ParseIgnoresSurroundingSpace(s: string)
    ensures ParseMessage(TrimSpace(s)) == ParseMessage(s)
  {
    TrimSpaceIdempotent(s);
    ParseDependsOnTrimOnly(TrimSpace(s), s);
  }

  /** A text of one line decodes (if at all) with an empty resource and
      payload; one of two lines, with an empty payload. */
  lemma MissingLinesAreEmpty(s: string)
    requires ParseMessage(s).Success?
    ensures '\n' !in TrimSpace(s) ==> ParseMessage(s).value.Resource == "" && ParseMessage(s).value.Payload == ""
    ensures (forall i :: |FirstField(TrimSpace(s), '\n')| < i < |TrimSpace(s)| ==> TrimSpace(s)[i] != '\n')
            ==> ParseMessage(s).value.Payload == ""
  {
    var t := TrimSpace(s);
    var m := ParseMessage(s).value;
    var h := FirstField(t, '\n');
    if t == h + "\n" + m.Resource + "\n" + m.Payload {
      assert t[|h| + 1 + |m.Resource|] == '\n';
      assert '\n' in t;
    }
  }

  /** A message survives the round trip through the wire text exactly when
      its header fits in a Go `int`, its resource is a single line, and no
      white space trails the text (the payload's end, or the resource's end
      when the payload is empty), since decoding trims it. */
  predicate Transmittable(m: Message) {
    && InInt64(m.Header)
    && '\n' !in m.Resource
    && (|m.Payload| > 0 ==> !IsSpace(m.Payload[|m.Payload| - 1]))
    && (|m.Payload| == 0 && |m.Resource| > 0 ==> !IsSpace(m.Resource[|m.Resource| - 1]))
  }

  lemma RoundTrip(m: Message)
    ensures ParseMessage(Stringify(m)) == Success(m) <==> Transmittable(m)
  {
    if Transmittable(m) {
      RoundTripOfTransmittable(m);
    }
    if ParseMessage(Stringify(m)) == Success(m) {
      LaidOutTrimmedEnds(TrimSpace(Stringify(m)), m);
    }
  }

  /** In a trimmed text, the last field present carries no trailing white
      space. */
  lemma LaidOutTrimmedEnds(t: string, m: Message)
    requires Trimmed(t) && LaidOut(t, m)
    ensures |m.Payload| > 0 ==> !IsSpace(m.Payload[|m.Payload| - 1])
    ensures |m.Payload| == 0 && |m.Resource| > 0 ==> !IsSpace(m.Resource[|m.Resource| - 1])
  {
    var h := FirstField(t, '\n');
    if |m.Payload| > 0 {
      assert t == h + "\n" + m.Resource + "\n" + m.Payload;
      assert t[|t| - 1] == m.Payload[|m.Payload| - 1];
    } else if |m.Resource| > 0 {
      if t == h + "\n" + m.Resource {
        assert t[|t| - 1] == m.Resource[|m.Resource| - 1];
      }
    }
  }

  lemma RoundTripOfTransmittable(m: Message)
    requires Transmittable(m)
    ensures ParseMessage(Stringify(m)) == Success(m)
  {
    if |m.Payload| > 0 {
      RoundTripWithPayload(m);
    } else if |m.Resource| > 0 {
      RoundTripWithResourceOnly(m);
    } else {
      RoundTripHeaderOnly(m);
    }
  }

  lemma RoundTripWithPayload(m: Message)
    requires Transmittable(m) && |m.Payload| > 0
    ensures ParseMessage(Stringify(m)) == Success(m)
  {
    var s := Stringify(m);
    assert TrimSpace(s) == s by {
      assert s[0] == Itoa(m.Header)[0] && s[|s| - 1] == m.Payload[|m.Payload| - 1];
      TrimSpaceOfTrimmed(s);
    }
    assert ParseLines(s) == Success(m) by {
      AtoiItoa(m.Header);
      var parts := Split(s, '\n');
      assert parts[2..] == Split(m.Payload, '\n');
      JoinSplit(m.Payload, '\n');
    }
    ParseAfterTrim(s, s, m);
  }

  lemma RoundTripWithResourceOnly(m: Message)
    requires Transmittable(m) && |m.Payload| == 0 && |m.Resource| > 0
    ensures ParseMessage(Stringify(m)) == Success(m)
  {
    ResourceOnlyTrimmed(m);
    HeaderAndResourceLines(m);
    ParseAfterTrim(Stringify(m), Itoa(m.Header) + "\n" + m.Resource, m);
  }

  lemma ResourceOnlyTrimmed(m: Message)
    requires |m.Payload| == 0 && |m.Resource| > 0 && !IsSpace(m.Resource[|m.Resource| - 1])
    ensures TrimSpace(Stringify(m)) == Itoa(m.Header) + "\n" + m.Resource
  {
    StringifyWithoutPayload(m);
    ResourceLineTrimmed(m.Header, m.Resource);
    TrimSpaceDropsNewline(Itoa(m.Header) + "\n" + m.Resource);
  }

  lemma StringifyWithoutPayload(m: Message)
    requires m.Payload == ""
    ensures Stringify(m) == (Itoa(m.Header) + "\n" + m.Resource) + ['\n']
  {
  }

  lemma TrimSpaceDropsNewline(t: string)
    requires Trimmed(t)
    ensures TrimSpace(t + ['\n']) == t
  {
    TrimSpaceAppendSpace(t, '\n');
    TrimSpaceOfTrimmed(t);
  }

  lemma ResourceLineTrimmed(header: int, resource: string)
    requires |resource| > 0 && !IsSpace(resource[|resource| - 1])
    ensures Trimmed(Itoa(header) + "\n" + resource)
  {
    var t := Itoa(header) + "\n" + resource;
    assert t[0] == Itoa(header)[0];
    assert t[|t| - 1] == resource[|resource| - 1];
  }

  lemma HeaderAndResourceLines(m: Message)
    requires InInt64(m.Header) && '\n' !in m.Resource && m.Payload == ""
    ensures ParseLines(Itoa(m.Header) + "\n" + m.Resource) == Success(m)
  {
    var h := Itoa(m.Header);
    AtoiItoa(m.Header);
    SplitAppend(h, '\n', m.Resource);
    SplitNoSeparator(m.Resource, '\n');
  }

  lemma RoundTripHeaderOnly(m: Message)
    requires Transmittable(m) && |m.Payload| == 0 && |m.Resource| == 0
    ensures ParseMessage(Stringify(m)) == Success(m)
  {
    HeaderOnlyTrimmed(m);
    HeaderLineOnly(m);
    ParseAfterTrim(Stringify(m), Itoa(m.Header), m);
  }

  lemma HeaderOnlyTrimmed(m: Message)
    requires m.Resource == "" && m.Payload == ""
    ensures TrimSpace(Stringify(m)) == Itoa(m.Header)
  {
    var h := Itoa(m.Header);
    StringifyHeaderOnly(m);
    TrimSpaceDropsTwoNewlines(h);
    ItoaTrimmed(m.Header);
    TrimSpaceOfTrimmed(h);
  }

  lemma StringifyHeaderOnly(m: Message)
    requires m.Resource == "" && m.Payload == ""
    ensures Stringify(m) == Itoa(m.Header) + ['\n'] + ['\n']
  {
    StringifyWithoutPayload(m);
    assert Itoa(m.Header) + "\n" + m.Resource == Itoa(m.Header) + ['\n'];
  }

  lemma TrimSpaceDropsTwoNewlines(h: string)
    ensures TrimSpace(h + ['\n'] + ['\n']) == TrimSpace(h)
  {
    TrimSpaceAppendSpace(h + ['\n'], '\n');
    TrimSpaceAppendSpace(h, '\n');
  }

  lemma HeaderLineOnly(m: Message)
    requires InInt64(m.Header) && m.Resource == "" && m.Payload == ""
    ensures ParseLines(Itoa(m.Header)) == Success(m)
  {
    AtoiItoa(m.Header);
    SplitNoSeparator(Itoa(m.Header), '\n');
  }

  lemma ParseAfterTrim(s: string, t: string, m: Message)
    requires TrimSpace(s) == t && ParseLines(t) == Success(m)
    ensures ParseMessage(s) == Success(m)
  {
  }
}

=== FILE: proofofwork.dfy ===
/** The hashcash engine of util/proofofwork.go: the canonical stamp text, the
    leading-zero test on a hex digest, and the bounded counter search.
    The digest function (SHA-1 printed as lower-case hex) is a parameter. */
module ProofOfWork {
  import opened GoLib

  /** A hashcash stamp; `Date` is in unix seconds and `Counter` is the
      search cursor, the only field the search changes. */
  datatype Hashcash = Hashcash(
    Version: int,
    ZerosCount: int,
    Date: int,
    Resource: string,
    Rand: string,
    Counter: int)

  /** A digest function from stamp text to hex text. */
  type Hasher = string -> string

  /** The seven fields of the stamp text, in order. */
  function Fields(h: Hashcash): seq<string> {
    [Itoa(h.Version), Itoa(h.ZerosCount), Itoa(h.Date), h.Resource, "", h.Rand, Itoa(h.Counter)]
  }

  lemma ItoaHasNoColon(n: int)
    ensures ':' !in Itoa(n)
  {
  }

  /** `Hashcash.Stringify`: the hashcash version 1 layout
      `ver:bits:date:resource:ext:rand:counter`, with an empty extension
      field and the difficulty written as a count of hex zeros. When
      neither the resource nor the random string contains a colon, the
      text splits back into its seven fields, the fifth (the extension)
      being empty. */
  function Stringify(h: Hashcash): (s: string)
    ensures ':' !in h.Resource && ':' !in h.Rand ==> Split(s, ':') == Fields(h)
  {
    if ':' !in h.Resource && ':' !in h.Rand then
      ItoaHasNoColon(h.Version);
      ItoaHasNoColon(h.ZerosCount);
      ItoaHasNoColon(h.Date);
      ItoaHasNoColon(h.Counter);
      Join(Fields(h), ':')
    else
      Join(Fields(h), ':')
  }

  /** Stamps that differ only in their counter have different texts, so
      the search never hashes the same text twice. */
  lemma StringifyCounterInjective(h: Hashcash, a: int, b: int)
    requires Stringify(h.(Counter := a)) == Stringify(h.(Counter := b))
    ensures a == b
  {
    var f := [Itoa(h.Version), Itoa(h.ZerosCount), Itoa(h.Date), h.Resource, "", h.Rand];
    var p := Join(f, ':') + ":";
    assert f + [Itoa(a)] == Fields(h.(Counter := a));
    assert f + [Itoa(b)] == Fields(h.(Counter := b));
    JoinSnoc(f, Itoa(a), ':');
    JoinSnoc(f, Itoa(b), ':');
    assert Itoa(a) == (p + Itoa(a))[|p|..];
    assert Itoa(b) == (p + Itoa(b))[|p|..];
    ItoaInjective(a, b);
  }

  /** True when every character of `s` is the ASCII digit zero. */
  function AllZeros(s: string): (ok: bool)
    ensures ok <==> forall i :: 0 <= i < |s| ==> s[i] == '0'
  {
    |s| == 0 || (s[0] == '0' && AllZeros(s[1..]))
  }

  /** `IsHashCorrect`: the digest starts with `zerosCount` zero characters;
      a digest shorter than that never passes. A negative count would make
      Go's slice expression panic, hence the precondition. */
  function IsHashCorrect(hash: string, zerosCount: int): (ok: bool)
    requires zerosCount >= 0
    ensures ok <==> zerosCount <= |hash| && forall i :: 0 <= i < zerosCount ==> hash[i] == '0'
  {
    if zerosCount > |hash| then false else AllZeros(hash[..zerosCount])
  }

  /** No leading zeros are ever too many to ask for none. */
  lemma ZeroDifficultyAlwaysPasses(hash: string)
    ensures IsHashCorrect(hash, 0)
  {
  }

  /** Meeting a difficulty meets every smaller one. */
  lemma IsHashCorrectMonotone(hash: string, k: int, j: int)
    requires 0 <= j <= k && IsHashCorrect(hash, k)
    ensures IsHashCorrect(hash, j)
  {
  }

  /** The stamp's digest meets the stamp's own difficulty. */
  predicate ProofHolds(hash: Hasher, h: Hashcash)
    requires h.ZerosCount >= 0
  {
    IsHashCorrect(hash(Stringify(h)), h.ZerosCount)
  }

  /** The stamp with its counter set to `c` meets its difficulty. */
  predicate PassesAt(hash: Hasher, h: Hashcash, c: int)
    requires h.ZerosCount >= 0
  {
    ProofHolds(hash, h.(Counter := c))
  }

  /** Go's `(Hashcash, error)` result of the search: the stamp as the loop
      left it, and whether a passing counter was found. */
  datatype Search = Search(stamp: Hashcash, found: bool)

  /** `ComputeHashcash`: try counters from the stamp's own counter upwards,
      up to and including `maxIterations`, and stop at the first whose
      digest meets the difficulty. On success the stamp carries the least
      passing counter; otherwise every counter in the range failed and the
      counter stands one past the bound (or where it started, when it
      started past the bound). Nothing but the counter changes. */
  function ComputeHashcash(h: Hashcash, maxIterations: int, hash: Hasher): (r: Search)
    requires h.ZerosCount >= 0
    ensures r.stamp == h.(Counter := r.stamp.Counter)
    ensures r.found ==> h.Counter <= r.stamp.Counter <= maxIterations && ProofHolds(hash, r.stamp)
    ensures forall c :: h.Counter <= c < r.stamp.Counter ==> !PassesAt(hash, h, c)
    ensures !r.found ==> r.stamp.Counter == if h.Counter <= maxIterations then maxIterations + 1 else h.Counter
    decreases if h.Counter <= maxIterations then maxIterations - h.Counter + 1 else 0
  {
    if h.Counter > maxIterations then Search(h, false)
    else if ProofHolds(hash, h) then Search(h, true)
    else
      var next := h.(Counter := h.Counter + 1);
      PassesAtIgnoresCounter(hash, h, h.Counter + 1);
      assert h.(Counter := h.Counter) == h;
      var r := ComputeHashcash(next, maxIterations, hash);
      assert next.(Counter := r.stamp.Counter) == h.(Counter := r.stamp.Counter);
      assert forall c :: h.Counter <= c < r.stamp.Counter ==> !PassesAt(hash, h, c) by {
        forall c | h.Counter <= c < r.stamp.Counter
          ensures !PassesAt(hash, h, c)
        {
          if c > h.Counter {
            assert !PassesAt(hash, next, c);
          }
        }
      }
      r
  }

  /** The search fails exactly when no counter from the start to the bound
      passes. */
  lemma SearchFailsIffNoPassingCounter(h: Hashcash, maxIterations: int, hash: Hasher)
    requires h.ZerosCount >= 0
    ensures !ComputeHashcash(h, maxIterations, hash).found
        <==> forall c :: h.Counter <= c <= maxIterations ==> !PassesAt(hash, h, c)
  {
    var r := ComputeHashcash(h, maxIterations, hash);
    if r.found {
      assert PassesAt(hash, h, r.stamp.Counter);
    }
  }

  /** Some counter that fits in a Go `int` makes the stamp pass. */
  ghost predicate Solvable(hash: Hasher, h: Hashcash)
    requires h.ZerosCount >= 0
  {
    exists c :: InInt64(c) && PassesAt(hash, h, c)
  }

  /** How Go's loop ends: it returns a search result, or it never returns. */
  datatype Run = Halts(search: Search) | Diverges

  /** Whether a stamp passes does not depend on the counter it carries. */
  lemma PassesAtIgnoresCounter(hash: Hasher, h: Hashcash, x: int)
    requires h.ZerosCount >= 0
    ensures forall c :: PassesAt(hash, h.(Counter := x), c) == PassesAt(hash, h, c)
  {
    forall c ensures PassesAt(hash, h.(Counter := x), c) == PassesAt(hash, h, c) {
      assert h.(Counter := x).(Counter := c) == h.(Counter := c);
    }
  }

  /** `ComputeHashcash` with Go's 64-bit `int` counter. Below `MaxInt64` as
      bound the loop is the unbounded search. With `MaxInt64` as bound the
      condition `h.Counter <= maxIterations` always holds, so after a
      failure at `MaxInt64` the counter wraps to `MinInt64` and the search
      goes on through the counters below the start. If none passes, the
      loop never returns. */
  function RunComputeHashcash(h: Hashcash, maxIterations: int, hash: Hasher): (r: Run)
    requires h.ZerosCount >= 0 && InInt64(h.Counter) && InInt64(maxIterations)
    ensures r.Diverges? <==> maxIterations == MaxInt64 && !Solvable(hash, h)
    ensures r.Halts? ==> r.search.stamp == h.(Counter := r.search.stamp.Counter) && InInt64(r.search.stamp.Counter)
    ensures r.Halts? && r.search.found ==> ProofHolds(hash, r.search.stamp)
    ensures (r.Halts? && !r.search.found)
        <==> maxIterations < MaxInt64 && forall c :: h.Counter <= c <= maxIterations ==> !PassesAt(hash, h, c)
    ensures maxIterations < MaxInt64 ==> r == Halts(ComputeHashcash(h, maxIterations, hash))
  {
    SearchFailsIffNoPassingCounter(h, maxIterations, hash);
    if maxIterations < MaxInt64 then
      Halts(ComputeHashcash(h, maxIterations, hash))
    else
      var upper := ComputeHashcash(h, maxIterations, hash);
      if upper.found then
        Halts(upper)
      else
        var wrapped := h.(Counter := MinInt64);
        PassesAtIgnoresCounter(hash, h, MinInt64);
        SearchFailsIffNoPassingCounter(wrapped, h.Counter - 1, hash);
        WrapCoversAllCounters(hash, h);
        var lower := ComputeHashcash(wrapped, h.Counter - 1, hash);
        if lower.found then Halts(lower) else Diverges
  }

  /** The counters from the start up to `MaxInt64`, together with those
      from `MinInt64` up to just below the start, are all the counters a Go
      `int` can hold. */
  lemma WrapCoversAllCounters(hash: Hasher, h: Hashcash)
    requires h.ZerosCount >= 0 && InInt64(h.Counter)
    ensures !Solvable(hash, h) <==>
      (forall c :: h.Counter <= c <= MaxInt64 ==> !PassesAt(hash, h, c))
      && (forall c :: MinInt64 <= c <= h.Counter - 1 ==> !PassesAt(hash, h, c))
  {
    if Solvable(hash, h) {
      var c :| InInt64(c) && PassesAt(hash, h, c);
      assert c >= h.Counter || c <= h.Counter - 1;
    }
  }

  /** With the bound equal to the claimed counter, as the server calls it:
      below `MaxInt64` exactly one digest is examined, so the search
      succeeds iff the claimed counter passes; a passing claimed counter is
      returned unchanged whatever its value; and a failing claim of
      `MaxInt64` sends the loop round the whole `int` range. */
  lemma CheckClaimedCounter(h: Hashcash, hash: Hasher)
    requires h.ZerosCount >= 0 && InInt64(h.Counter)
    ensures h.Counter < MaxInt64 ==>
      && RunComputeHashcash(h, h.Counter, hash).Halts?
      && (RunComputeHashcash(h, h.Counter, hash).search.found <==> ProofHolds(hash, h))
    ensures ProofHolds(hash, h) ==> RunComputeHashcash(h, h.Counter, hash) == Halts(Search(h, true))
    ensures h.Counter == MaxInt64 && !ProofHolds(hash, h) ==>
      (RunComputeHashcash(h, h.Counter, hash).Diverges? <==> !Solvable(hash, h))
  {
    if ProofHolds(hash, h) {
      assert ComputeHashcash(h, h.Counter, hash) == Search(h, true);
    }
  }

  /** A stamp found by a search whose bounds fit in a Go `int` is accepted
      by the single-counter check. */
  lemma SolutionPassesCheck(h: Hashcash, maxIterations: int, hash: Hasher)
    requires h.ZerosCount >= 0 && InInt64(h.Counter) && InInt64(maxIterations)
    requires ComputeHashcash(h, maxIterations, hash).found
    ensures var s := ComputeHashcash(h, maxIterations, hash).stamp;
      InInt64(s.Counter) && RunComputeHashcash(s, s.Counter, hash) == Halts(Search(s, true))
  {
    var s := ComputeHashcash(h, maxIterations, hash).stamp;
    CheckClaimedCounter(s, hash);
  }
}

=== FILE: server.dfy ===
/** `ProcessRequest` of server.go as a pure step: one request text in, the
    reply (if any) and the new challenge cache out. The clock, the random
    generator, the quote service, the JSON codec and the digest function
    are parameters; the cache is the set of keys Redis holds. */
module Server {
  import opened Wrappers
  import opened GoLib
  import opened Messages
  import opened ProofOfWork
  import opened Utils

  /** The settings the handler reads. `HashcashDuration` is a Go
      `time.Duration`, a count of nanoseconds. */
  datatype Config = Config(
    HashcashZerosCount: int,
    HashcashDuration: int,
    HashcashMaxIterations: int,
    SaltLen: int)

  /** Every key the Redis database holds: the keys of issued, not yet
      redeemed, not yet expired challenges, and anything else stored there,
      such as the test entry written at start-up. */
  type Cache = set<string>

  /** The entry `InitRedisCache` writes to test the connection: a key that
      never expires, in the same database as the challenge keys. */
  const StartupKey: string := "key"

  /** The store as `InitRedisCache` leaves it. Its test entry is the key of
      a stamp that was never issued: salt `"key"`, empty resource. */
  function InitialCache(): (c: Cache)
    ensures exists h: Hashcash :: ChallengeKey(h) in c
  {
    assert ChallengeKey(Hashcash(1, 0, 0, "", StartupKey, 0)) == StartupKey;
    {StartupKey}
  }

  /** The store a start-up that leaves no entry behind would give: it holds
      no stamp's key, so every key the server finds was issued by it. */
  function InitialCacheChecked(): (c: Cache)
    ensures forall h: Hashcash :: ChallengeKey(h) !in c
  {
    {}
  }

  /** `json.Marshal` and `json.Unmarshal` for stamps; unmarshalling may
      fail on malformed text. */
  datatype JsonCodec = JsonCodec(marshal: Hashcash -> string, unmarshal: string -> Option<Hashcash>)

  /** Unmarshalling gives back every marshalled stamp. */
  ghost predicate Lossless(json: JsonCodec) {
    forall h :: json.unmarshal(json.marshal(h)) == Some(h)
  }

  /** Why a request got no reply; the server logs it and closes the
      connection. */
  datatype Rejection =
    | SaltUnavailable    // the random read failed
    | PayloadUnreadable  // the payload is not a JSON stamp
    | ChallengeUnknown   // no such key in the cache: never stored, expired or used
    | ChallengeExpired   // the stamp's date is too far in the past
    | InvalidHashcash    // the digest at the claimed counter lacks the zeros
    | UnknownHeader      // a header other than the two request codes
    | MalformedMessage   // the text does not parse (checked handler only)

  /** The result of handling one request. `Panic` is a Go runtime panic,
      which takes down the whole server process; `Hang` is a handler that
      loops forever on one core. */
  datatype Outcome =
    | Reply(msg: Message, cache: Cache)
    | Reject(reason: Rejection, cache: Cache)
    | Panic
    | Hang   // the handler never returns

  /** The cache key of a challenge: its random string then its resource. */
  function ChallengeKey(h: Hashcash): string {
    h.Rand + h.Resource
  }

  /** The age limit the server applies to a stamp, in seconds:
      `HashcashDuration.Milliseconds() / 100`, with Go's truncating
      divisions. It is the number of whole tenths of a second in the
      duration, counted toward zero. */
  function ChallengeLifetime(conf: Config): (limit: int)
    ensures conf.HashcashDuration >= 0 ==>
      0 <= limit && limit * 100_000_000 <= conf.HashcashDuration < (limit + 1) * 100_000_000
    ensures conf.HashcashDuration < 0 ==>
      limit <= 0 && -limit * 100_000_000 <= -conf.HashcashDuration < (-limit + 1) * 100_000_000
  {
    var d := Abs(conf.HashcashDuration);
    TenthsOfSecond(d);
    Quot(Quot(conf.HashcashDuration, 1_000_000), 100)
  }

  /** The limit is ten times the configured duration, not the duration. */
  lemma LifetimeIsTenfoldDuration(conf: Config, seconds: nat)
    requires conf.HashcashDuration == seconds * 1_000_000_000
    ensures ChallengeLifetime(conf) == 10 * seconds
  {
    assert Quot(conf.HashcashDuration, 1_000_000) == seconds * 1000;
  }

  /** TTL expiry, a step of the environment: Redis drops a key. */
  function Expire(cache: Cache, key: string): (c: Cache)
    ensures key !in c && c <= cache
    ensures forall k :: k in cache && k != key ==> k in c
  {
    cache - {key}
  }

  /** The `RequestChallenge` branch: draw a salt, record `salt + resource`
      in the cache and send back a version 1 stamp with the configured
      difficulty, the current time, the request's resource, the salt and
      counter 0. */
  function IssueChallenge(resource: string, now: int, conf: Config, entropy: Entropy,
                          cache: Cache, json: JsonCodec): (out: Outcome)
    ensures out.Panic? <==> conf.SaltLen < 0
    ensures !out.Hang?
    ensures out.Reject? <==> conf.SaltLen >= 0 && entropy.ReadFailure?
    ensures out.Reject? ==> out == Reject(SaltUnavailable, cache)
    ensures out.Reply? ==> out.msg.Header == ResponseChallenge && out.msg.Resource == resource
    ensures out.Reply? ==> exists salt :: |salt| == conf.SaltLen && out.cache == cache + {salt + resource}
  {
    if conf.SaltLen < 0 then
      Panic  // make([]byte, n) with n < 0
    else
      match GetRandSalt(conf.SaltLen, entropy)
      case Failure(_) => Reject(SaltUnavailable, cache)
      case Success(salt) =>
        var stamp := Hashcash(1, conf.HashcashZerosCount, now, resource, salt, 0);
        Reply(Message(ResponseChallenge, resource, json.marshal(stamp)), cache + {salt + resource})
  }

  /** The stamp is recent enough: its age in seconds is within the limit. */
  predicate Fresh(h: Hashcash, now: int, conf: Config) {
    now - h.Date <= ChallengeLifetime(conf)
  }

  /** Every number of the stamp fits the Go `int` field it is read into. */
  predicate IntFields(h: Hashcash) {
    InInt64(h.Version) && InInt64(h.ZerosCount) && InInt64(h.Date) && InInt64(h.Counter)
  }

  /** `json.Unmarshal` into the Go struct: the text must decode, and
      `encoding/json` reports an error for a number that overflows its
      `int` field. */
  function ReadStamp(json: JsonCodec, payload: string): Option<Hashcash> {
    match json.unmarshal(payload)
    case Some(h) => if IntFields(h) then Some(h) else None
    case None => None
  }

  /** The `RequestResource` branch: decode the stamp, require its key in the
      cache, a recent date and a valid digest, then delete the key and send
      the quote. Difficulty and date are taken from the stamp itself. The
      digest is checked by `ComputeHashcash` with the claimed counter as
      bound: below `MaxInt64` that examines the claimed counter alone, but
      a failing claim of `MaxInt64` wraps the counter round, so the server
      searches every `int` counter itself and hangs if none passes. */
  function GrantResource(payload: string, now: int, conf: Config, quote: string,
                         cache: Cache, json: JsonCodec, hash: Hasher): (out: Outcome)
    ensures out.Reject? ==> out.cache == cache
    ensures out == Reject(PayloadUnreadable, cache) <==> ReadStamp(json, payload).None?
    ensures out == Reject(ChallengeUnknown, cache) <==> (ReadStamp(json, payload).Some? && var h := ReadStamp(json, payload).value;
      ChallengeKey(h) !in cache)
    ensures out == Reject(ChallengeExpired, cache) <==> (ReadStamp(json, payload).Some? && var h := ReadStamp(json, payload).value;
      ChallengeKey(h) in cache && !Fresh(h, now, conf))
    ensures out.Panic? <==> (ReadStamp(json, payload).Some? && var h := ReadStamp(json, payload).value;
      ChallengeKey(h) in cache && Fresh(h, now, conf) && h.ZerosCount < 0)
    ensures out == Reject(InvalidHashcash, cache) <==> (ReadStamp(json, payload).Some? && var h := ReadStamp(json, payload).value;
      ChallengeKey(h) in cache && Fresh(h, now, conf) && h.ZerosCount >= 0 && h.Counter < MaxInt64 && !ProofHolds(hash, h))
    ensures out.Hang? <==> (ReadStamp(json, payload).Some? && var h := ReadStamp(json, payload).value;
      ChallengeKey(h) in cache && Fresh(h, now, conf) && h.ZerosCount >= 0 && h.Counter == MaxInt64 && !Solvable(hash, h))
    ensures out.Reply? <==> (ReadStamp(json, payload).Some? && var h := ReadStamp(json, payload).value;
      ChallengeKey(h) in cache && Fresh(h, now, conf) && h.ZerosCount >= 0
      && (ProofHolds(hash, h) || (h.Counter == MaxInt64 && Solvable(hash, h))))
    ensures out.Reply? ==> var h := ReadStamp(json, payload).value;
      out.msg == Message(ResponseResource, "", quote) && out.cache == cache - {ChallengeKey(h)}
    ensures out.Reply? ==> exists key :: key in cache && out.cache == cache - {key}
  {
    match ReadStamp(json, payload)
    case None => Reject(PayloadUnreadable, cache)
    case Some(h) =>
      var key := h.Rand + h.Resource;
      if key !in cache then
        Reject(ChallengeUnknown, cache)
      else if now - h.Date > ChallengeLifetime(conf) then
        Reject(ChallengeExpired, cache)
      else if h.ZerosCount < 0 then
        Panic  // IsHashCorrect slices hash[:ZerosCount]
      else
        CheckClaimedCounter(h, hash);
        match RunComputeHashcash(h, h.Counter, hash)
        case Diverges => Hang
        case Halts(search) =>
          if !search.found then
            Reject(InvalidHashcash, cache)
          else
            Reply(Message(ResponseResource, "", quote), cache - {key})
  }

  /** The switch on the parsed header. */
  function Dispatch(msg: Message, now: int, conf: Config, entropy: Entropy, quote: string,
                    cache: Cache, json: JsonCodec, hash: Hasher): (out: Outcome)
    ensures msg.Header != RequestChallenge && msg.Header != RequestResource ==> out == Reject(UnknownHeader, cache)
    ensures out.Hang? ==> msg.Header == RequestResource
    ensures out.Reject? ==> out.cache == cache
    ensures out.Reply? ==> out.msg.Header == ResponseChallenge || out.msg.Header == ResponseResource
    ensures out.Reply? && out.msg.Header == ResponseChallenge ==>
      exists salt :: |salt| == conf.SaltLen && out.cache == cache + {salt + out.msg.Resource}
    ensures out.Reply? && out.msg.Header == ResponseResource ==>
      exists key :: key in cache && out.cache == cache - {key}
  {
    if msg.Header == RequestChallenge then
      IssueChallenge(msg.Resource, now, conf, entropy, cache, json)
    else if msg.Header == RequestResource then
      GrantResource(msg.Payload, now, conf, quote, cache, json, hash)
    else
      Reject(UnknownHeader, cache)
  }

  /** `ProcessRequest` as written: it reads `msg.Resource` before looking at
      the parse error, so a request that does not parse reads a field of a
      nil message and panics. A rejection never changes the cache; a challenge adds one
      key and a grant removes one. */
  function ProcessRequest(req: string, now: int, conf: Config, entropy: Entropy, quote: string,
                          cache: Cache, json: JsonCodec, hash: Hasher): (out: Outcome)
    ensures ParseMessage(req).Failure? ==> out.Panic?
    ensures out.Reject? ==> out.cache == cache
    ensures out.Reply? ==> out.msg.Header == ResponseChallenge || out.msg.Header == ResponseResource
    ensures out.Reply? && out.msg.Header == ResponseChallenge ==>
      exists salt :: |salt| == conf.SaltLen && out.cache == cache + {salt + out.msg.Resource}
    ensures out.Reply? && out.msg.Header == ResponseResource ==>
      exists key :: key in cache && out.cache == cache - {key}
  {
    match ParseMessage(req)
    case Failure(_) => Panic
    case Success(msg) =>
      Dispatch(msg, now, conf, entropy, quote, cache, json, hash)
  }

  // -----------------------------------------------------------------------
  // Properties of the handler

  /** A request that parses is handled by the switch on its header. */
  lemma ParsedRequestDispatched(req: string, msg: Message, now: int, conf: Config, entropy: Entropy, quote: string,
                                cache: Cache, json: JsonCodec, hash: Hasher)
    requires ParseMessage(req) == Success(msg)
    ensures ProcessRequest(req, now, conf, entropy, quote, cache, json, hash)
         == Dispatch(msg, now, conf, entropy, quote, cache, json, hash)
  {
  }

  /** A resource request is handled by the grant branch alone. */
  lemma ResourceRequestDispatched(msg: Message, now: int, conf: Config, entropy: Entropy, quote: string,
                                  cache: Cache, json: JsonCodec, hash: Hasher)
    requires msg.Header == RequestResource
    ensures Dispatch(msg, now, conf, entropy, quote, cache, json, hash)
         == GrantResource(msg.Payload, now, conf, quote, cache, json, hash)
  {
  }

  /** A challenge request is handled by the issuing branch alone. */
  lemma ChallengeRequestDispatched(msg: Message, now: int, conf: Config, entropy: Entropy, quote: string,
                                   cache: Cache, json: JsonCodec, hash: Hasher)
    requires msg.Header == RequestChallenge
    ensures Dispatch(msg, now, conf, entropy, quote, cache, json, hash)
         == IssueChallenge(msg.Resource, now, conf, entropy, cache, json)
  {
  }

  /** Of the configuration, the grant branch reads only the duration. */
  lemma GrantReadsOnlyDuration(payload: string, now: int, conf: Config, conf2: Config, quote: string,
                               cache: Cache, json: JsonCodec, hash: Hasher)
    requires conf2.HashcashDuration == conf.HashcashDuration
    ensures GrantResource(payload, now, conf, quote, cache, json, hash)
         == GrantResource(payload, now, conf2, quote, cache, json, hash)
  {
    assert ChallengeLifetime(conf) == ChallengeLifetime(conf2);
  }

  /** A decodable, known, recent stamp with a valid proof buys the quote
      and uses up its key. */
  lemma GrantAccepted(payload: string, h: Hashcash, now: int, conf: Config, quote: string,
                      cache: Cache, json: JsonCodec, hash: Hasher)
    requires ReadStamp(json, payload) == Some(h)
    requires ChallengeKey(h) in cache && Fresh(h, now, conf) && h.ZerosCount >= 0 && ProofHolds(hash, h)
    ensures GrantResource(payload, now, conf, quote, cache, json, hash)
         == Reply(Message(ResponseResource, "", quote), cache - {ChallengeKey(h)})
  {
  }

  /** Headers other than the two request codes are refused: no reply, and
      the cache is left as it was. */
  lemma UnknownHeaderRejected(req: string, msg: Message, now: int, conf: Config, entropy: Entropy, quote: string,
                              cache: Cache, json: JsonCodec, hash: Hasher)
    requires ParseMessage(req) == Success(msg)
    requires msg.Header != RequestChallenge && msg.Header != RequestResource
    ensures ProcessRequest(req, now, conf, entropy, quote, cache, json, hash) == Reject(UnknownHeader, cache)
  {
    ParsedRequestDispatched(req, msg, now, conf, entropy, quote, cache, json, hash);
  }

  /** The stamp the issuing branch sends, read back through the codec. */
  lemma IssuedStamp(resource: string, now: int, conf: Config, entropy: Entropy, cache: Cache, json: JsonCodec)
    requires Lossless(json)
    requires conf.SaltLen >= 0 && entropy.RandomBytes?
    ensures var out := IssueChallenge(resource, now, conf, entropy, cache, json);
      && out.Reply?
      && var salt := GetRandSalt(conf.SaltLen, entropy).value;
      && json.unmarshal(out.msg.Payload) == Some(Hashcash(1, conf.HashcashZerosCount, now, resource, salt, 0))
      && out.cache == cache + {salt + resource}
  {
    var salt := GetRandSalt(conf.SaltLen, entropy).value;
    assert json.unmarshal(json.marshal(Hashcash(1, conf.HashcashZerosCount, now, resource, salt, 0)))
        == Some(Hashcash(1, conf.HashcashZerosCount, now, resource, salt, 0));
  }

  /** Issuing a challenge: the reply carries header 1, echoes the request's
      resource, and holds a stamp that decodes to version 1, the configured
      difficulty, the current time, the request's resource, a salt of the
      configured length made of base64 alphabet characters, and counter 0;
      the cache gains exactly that stamp's key. */
  lemma ChallengeIssued(req: string, msg: Message, now: int, conf: Config, entropy: Entropy, quote: string,
                        cache: Cache, json: JsonCodec, hash: Hasher)
    requires Lossless(json)
    requires ParseMessage(req) == Success(msg) && msg.Header == RequestChallenge
    requires conf.SaltLen >= 0 && entropy.RandomBytes?
    ensures var out := ProcessRequest(req, now, conf, entropy, quote, cache, json, hash);
      && out.Reply?
      && out.msg.Header == ResponseChallenge
      && out.msg.Resource == msg.Resource
      && json.unmarshal(out.msg.Payload).Some?
      && var h := json.unmarshal(out.msg.Payload).value;
      && h.Version == 1 && h.ZerosCount == conf.HashcashZerosCount && h.Date == now
      && h.Resource == msg.Resource && h.Counter == 0
      && |h.Rand| == conf.SaltLen
      && (forall i :: 0 <= i < |h.Rand| ==> Base64.IsAlphabetChar(h.Rand[i]))
      && out.cache == cache + {ChallengeKey(h)}
  {
    ChallengeRequestDispatched(msg, now, conf, entropy, quote, cache, json, hash);
    ParsedRequestDispatched(req, msg, now, conf, entropy, quote, cache, json, hash);
    IssuedStamp(msg.Resource, now, conf, entropy, cache, json);
  }

  /** A request for the resource whose stamp's key is not in the cache, for
      instance because it has expired or has been used, is refused. */
  lemma UnknownChallengeRejected(req: string, msg: Message, now: int, conf: Config, entropy: Entropy, quote: string,
                                 cache: Cache, json: JsonCodec, hash: Hasher, h: Hashcash)
    requires ParseMessage(req) == Success(msg) && msg.Header == RequestResource
    requires ReadStamp(json, msg.Payload) == Some(h) && ChallengeKey(h) !in cache
    ensures ProcessRequest(req, now, conf, entropy, quote, cache, json, hash) == Reject(ChallengeUnknown, cache)
  {
    ResourceRequestDispatched(msg, now, conf, entropy, quote, cache, json, hash);
    ParsedRequestDispatched(req, msg, now, conf, entropy, quote, cache, json, hash);
  }

  /** A known stamp older than the limit is refused, however good its
      proof. */
  lemma StaleChallengeRejected(req: string, msg: Message, now: int, conf: Config, entropy: Entropy, quote: string,
                               cache: Cache, json: JsonCodec, hash: Hasher, h: Hashcash)
    requires ParseMessage(req) == Success(msg) && msg.Header == RequestResource
    requires ReadStamp(json, msg.Payload) == Some(h) && ChallengeKey(h) in cache && !Fresh(h, now, conf)
    ensures ProcessRequest(req, now, conf, entropy, quote, cache, json, hash) == Reject(ChallengeExpired, cache)
  {
    ResourceRequestDispatched(msg, now, conf, entropy, quote, cache, json, hash);
    ParsedRequestDispatched(req, msg, now, conf, entropy, quote, cache, json, hash);
  }

  /** Single use: once a stamp has bought the resource, presenting the same
      payload again, at any time and with any resource line, is refused. */
  lemma ReplayRejected(req: string, msg: Message, now: int, conf: Config, entropy: Entropy, quote: string,
                       cache: Cache, json: JsonCodec, hash: Hasher,
                       req2: string, msg2: Message, now2: int, entropy2: Entropy, quote2: string)
    requires ParseMessage(req) == Success(msg) && msg.Header == RequestResource
    requires ProcessRequest(req, now, conf, entropy, quote, cache, json, hash).Reply?
    requires ParseMessage(req2) == Success(msg2) && msg2.Header == RequestResource
    requires msg2.Payload == msg.Payload
    ensures var after := ProcessRequest(req, now, conf, entropy, quote, cache, json, hash).cache;
      ProcessRequest(req2, now2, conf, entropy2, quote2, after, json, hash) == Reject(ChallengeUnknown, after)
  {
    ParsedRequestDispatched(req, msg, now, conf, entropy, quote, cache, json, hash);
    ResourceRequestDispatched(msg, now, conf, entropy, quote, cache, json, hash);
    var after := ProcessRequest(req, now, conf, entropy, quote, cache, json, hash).cache;
    ParsedRequestDispatched(req2, msg2, now2, conf, entropy2, quote2, after, json, hash);
    ResourceRequestDispatched(msg2, now2, conf, entropy2, quote2, after, json, hash);
  }

  /** After the cache lets a challenge expire it can no longer be redeemed. */
  lemma ExpiredChallengeRejected(req: string, msg: Message, now: int, conf: Config, entropy: Entropy, quote: string,
                                 cache: Cache, json: JsonCodec, hash: Hasher, h: Hashcash)
    requires ParseMessage(req) == Success(msg) && msg.Header == RequestResource
    requires ReadStamp(json, msg.Payload) == Some(h)
    ensures ProcessRequest(req, now, conf, entropy, quote, Expire(cache, ChallengeKey(h)), json, hash)
         == Reject(ChallengeUnknown, Expire(cache, ChallengeKey(h)))
  {
    ResourceRequestDispatched(msg, now, conf, entropy, quote, Expire(cache, ChallengeKey(h)), json, hash);
    ParsedRequestDispatched(req, msg, now, conf, entropy, quote, Expire(cache, ChallengeKey(h)), json, hash);
  }

  /** Issue, then redeem: the stamp as issued, with only its counter changed
      to one that passes, presented within the age limit, buys the quote and
      uses up the key issuance stored. */
  lemma IssueThenRedeem(req0: string, msg0: Message, now0: int, conf: Config, entropy: Entropy, quote0: string,
                        cache: Cache, json: JsonCodec, hash: Hasher,
                        puzzle: Hashcash, counter: int, req1: string, msg1: Message, now1: int, entropy1: Entropy, quote: string)
    requires Lossless(json)
    requires ParseMessage(req0) == Success(msg0) && msg0.Header == RequestChallenge
    requires conf.SaltLen >= 0 && entropy.RandomBytes? && conf.HashcashZerosCount >= 0
    requires var issued := ProcessRequest(req0, now0, conf, entropy, quote0, cache, json, hash);
      issued.Reply? && json.unmarshal(issued.msg.Payload) == Some(puzzle)
    requires InInt64(now0) && InInt64(conf.HashcashZerosCount) && InInt64(counter)
    requires PassesAt(hash, puzzle, counter)
    requires now1 - now0 <= ChallengeLifetime(conf)
    requires ParseMessage(req1) == Success(msg1) && msg1.Header == RequestResource
    requires msg1.Payload == json.marshal(puzzle.(Counter := counter))
    ensures var issued := ProcessRequest(req0, now0, conf, entropy, quote0, cache, json, hash);
      ProcessRequest(req1, now1, conf, entropy1, quote, issued.cache, json, hash)
        == Reply(Message(ResponseResource, "", quote), issued.cache - {ChallengeKey(puzzle)})
  {
    ChallengeIssued(req0, msg0, now0, conf, entropy, quote0, cache, json, hash);
    var issued := ProcessRequest(req0, now0, conf, entropy, quote0, cache, json, hash);
    SolvedStampGranted(msg1.Payload, puzzle, counter, now0, now1, conf, quote, issued.cache, json, hash);
    ParsedRequestDispatched(req1, msg1, now1, conf, entropy1, quote, issued.cache, json, hash);
    ResourceRequestDispatched(msg1, now1, conf, entropy1, quote, issued.cache, json, hash);
  }

  /** The grant step of `IssueThenRedeem`: an issued stamp, solved and sent
      back in time, is read back whole and accepted. */
  lemma SolvedStampGranted(payload: string, puzzle: Hashcash, counter: int, now0: int, now1: int, conf: Config,
                           quote: string, cache: Cache, json: JsonCodec, hash: Hasher)
    requires Lossless(json) && payload == json.marshal(puzzle.(Counter := counter))
    requires puzzle.Version == 1 && puzzle.ZerosCount == conf.HashcashZerosCount && puzzle.Date == now0
    requires InInt64(now0) && InInt64(conf.HashcashZerosCount) && InInt64(counter) && conf.HashcashZerosCount >= 0
    requires ChallengeKey(puzzle) in cache && PassesAt(hash, puzzle, counter)
    requires now1 - now0 <= ChallengeLifetime(conf)
    ensures GrantResource(payload, now1, conf, quote, cache, json, hash)
         == Reply(Message(ResponseResource, "", quote), cache - {ChallengeKey(puzzle)})
  {
    var solved := puzzle.(Counter := counter);
    assert json.unmarshal(payload) == Some(solved);
    assert ReadStamp(json, payload) == Some(solved);
    assert ChallengeKey(solved) == ChallengeKey(puzzle);
    GrantAccepted(payload, solved, now1, conf, quote, cache, json, hash);
  }

  /** The full exchange with an honest client: it runs the bounded search on
      the issued stamp, and if the search succeeds and the solution arrives
      within the age limit, the server grants the quote. */
  lemma HonestClientGranted(req0: string, msg0: Message, now0: int, conf: Config, entropy: Entropy, quote0: string,
                            cache: Cache, json: JsonCodec, hash: Hasher,
                            puzzle: Hashcash, maxIterations: int, req1: string, msg1: Message, now1: int, entropy1: Entropy, quote: string)
    requires Lossless(json)
    requires ParseMessage(req0) == Success(msg0) && msg0.Header == RequestChallenge
    requires conf.SaltLen >= 0 && entropy.RandomBytes? && conf.HashcashZerosCount >= 0
    requires var issued := ProcessRequest(req0, now0, conf, entropy, quote0, cache, json, hash);
      issued.Reply? && json.unmarshal(issued.msg.Payload) == Some(puzzle)
    requires InInt64(now0) && InInt64(conf.HashcashZerosCount) && InInt64(maxIterations)
    requires ComputeHashcash(puzzle, maxIterations, hash).found
    requires now1 - now0 <= ChallengeLifetime(conf)
    requires ParseMessage(req1) == Success(msg1) && msg1.Header == RequestResource
    requires msg1.Payload == json.marshal(ComputeHashcash(puzzle, maxIterations, hash).stamp)
    ensures var issued := ProcessRequest(req0, now0, conf, entropy, quote0, cache, json, hash);
      ProcessRequest(req1, now1, conf, entropy1, quote, issued.cache, json, hash).Reply?
  {
    ChallengeIssued(req0, msg0, now0, conf, entropy, quote0, cache, json, hash);
    var search := ComputeHashcash(puzzle, maxIterations, hash);
    var counter := search.stamp.Counter;
    assert search.stamp == puzzle.(Counter := counter);
    assert PassesAt(hash, puzzle, counter);
    IssueThenRedeem(req0, msg0, now0, conf, entropy, quote0, cache, json, hash,
                    puzzle, counter, req1, msg1, now1, entropy1, quote);
  }

  /** The grant never looks at the request's resource line, nor at the
      configured difficulty, salt length or search bound: two requests that
      differ only there are handled alike. */
  lemma GrantIgnoresRequestResourceAndDifficulty(
      req: string, msg: Message, req2: string, msg2: Message, now: int, conf: Config, conf2: Config,
      entropy: Entropy, entropy2: Entropy, quote: string, cache: Cache, json: JsonCodec, hash: Hasher)
    requires ParseMessage(req) == Success(msg) && msg.Header == RequestResource
    requires ParseMessage(req2) == Success(msg2) && msg2.Header == RequestResource
    requires msg2.Payload == msg.Payload
    requires conf2.HashcashDuration == conf.HashcashDuration
    ensures ProcessRequest(req, now, conf, entropy, quote, cache, json, hash)
         == ProcessRequest(req2, now, conf2, entropy2, quote, cache, json, hash)
  {
    ParsedRequestDispatched(req, msg, now, conf, entropy, quote, cache, json, hash);
    ResourceRequestDispatched(msg, now, conf, entropy, quote, cache, json, hash);
    ParsedRequestDispatched(req2, msg2, now, conf2, entropy2, quote, cache, json, hash);
    ResourceRequestDispatched(msg2, now, conf2, entropy2, quote, cache, json, hash);
    GrantReadsOnlyDuration(msg.Payload, now, conf, conf2, quote, cache, json, hash);
  }

  /** Because the difficulty is read from the client's own stamp, a known,
      recent stamp that claims zero difficulty is granted whatever its
      digest. */
  lemma ZeroDifficultyGranted(req: string, msg: Message, now: int, conf: Config, entropy: Entropy, quote: string,
                              cache: Cache, json: JsonCodec, hash: Hasher, h: Hashcash)
    requires ParseMessage(req) == Success(msg) && msg.Header == RequestResource
    requires ReadStamp(json, msg.Payload) == Some(h)
    requires ChallengeKey(h) in cache && Fresh(h, now, conf) && h.ZerosCount == 0
    ensures ProcessRequest(req, now, conf, entropy, quote, cache, json, hash)
         == Reply(Message(ResponseResource, "", quote), cache - {ChallengeKey(h)})
  {
    ResourceRequestDispatched(msg, now, conf, entropy, quote, cache, json, hash);
    ParsedRequestDispatched(req, msg, now, conf, entropy, quote, cache, json, hash);
    ZeroDifficultyAlwaysPasses(hash(ProofOfWork.Stringify(h)));
  }

  // -----------------------------------------------------------------------
  // Two defects: the parse error is read too late, and the claimed counter
  // is checked by a search that wraps round at MaxInt64

  /** As written, a request that does not parse panics the server. */
  lemma MalformedRequestPanics(now: int, conf: Config, entropy: Entropy, quote: string,
                               cache: Cache, json: JsonCodec, hash: Hasher)
    ensures ProcessRequest("hello", now, conf, entropy, quote, cache, json, hash) == Panic
  {
    HelloIsMalformed();
  }

  /** The request `hello` does not parse: its first line is not a number. */
  lemma HelloIsMalformed()
    ensures ParseMessage("hello") == Failure(BadHeader)
  {
    assert Trimmed("hello");
    TrimSpaceOfTrimmed("hello");
    NonNumericHeaderRejected("hello");
  }

  /** The grant branch with the digest checked at the claimed counter
      alone, as evidently intended: it never hangs, and it grants exactly
      when the claimed counter passes. It differs from the branch as written
      only for a stamp claiming counter `MaxInt64`. */
  function GrantResourceChecked(payload: string, now: int, conf: Config, quote: string,
                                cache: Cache, json: JsonCodec, hash: Hasher): (out: Outcome)
    ensures !out.Hang?
    ensures out.Reject? ==> out.cache == cache
    ensures out.Reply? <==> (ReadStamp(json, payload).Some? && var h := ReadStamp(json, payload).value;
      ChallengeKey(h) in cache && Fresh(h, now, conf) && h.ZerosCount >= 0 && ProofHolds(hash, h))
    ensures out.Reply? ==> var h := ReadStamp(json, payload).value;
      out == Reply(Message(ResponseResource, "", quote), cache - {ChallengeKey(h)})
    ensures (ReadStamp(json, payload).None? || ReadStamp(json, payload).value.Counter < MaxInt64)
      ==> out == GrantResource(payload, now, conf, quote, cache, json, hash)
    ensures GrantResource(payload, now, conf, quote, cache, json, hash).Hang? ==> out == Reject(InvalidHashcash, cache)
    ensures ReadStamp(json, payload).Some? && ChallengeKey(ReadStamp(json, payload).value) !in cache ==>
      out == Reject(ChallengeUnknown, cache)
  {
    match ReadStamp(json, payload)
    case None => Reject(PayloadUnreadable, cache)
    case Some(h) =>
      var key := h.Rand + h.Resource;
      if key !in cache then
        Reject(ChallengeUnknown, cache)
      else if now - h.Date > ChallengeLifetime(conf) then
        Reject(ChallengeExpired, cache)
      else if h.ZerosCount < 0 then
        Panic
      else if !ProofHolds(hash, h) then
        Reject(InvalidHashcash, cache)
      else
        Reply(Message(ResponseResource, "", quote), cache - {key})
  }

  /** The switch on the parsed header, with the corrected grant. It differs
      from `Dispatch` only on a resource request whose stamp claims counter
      `MaxInt64`. */
  function DispatchChecked(msg: Message, now: int, conf: Config, entropy: Entropy, quote: string,
                           cache: Cache, json: JsonCodec, hash: Hasher): (out: Outcome)
    ensures !out.Hang?
    ensures out.Reply? && out.msg.Header == ResponseResource ==>
      exists key :: key in cache && out.cache == cache - {key}
    ensures out != Dispatch(msg, now, conf, entropy, quote, cache, json, hash) ==>
      msg.Header == RequestResource && ReadStamp(json, msg.Payload).Some?
        && ReadStamp(json, msg.Payload).value.Counter == MaxInt64
  {
    if msg.Header == RequestResource then
      ResourceRequestDispatched(msg, now, conf, entropy, quote, cache, json, hash);
      GrantResourceChecked(msg.Payload, now, conf, quote, cache, json, hash)
    else
      Dispatch(msg, now, conf, entropy, quote, cache, json, hash)
  }

  /** The handler with both defects mended: the parse error is checked
      first, so a malformed request is refused like any other bad request,
      and the grant checks the claimed counter alone, so no request makes
      the server hang. Every other request is handled exactly as by
      `ProcessRequest`. */
  function ProcessRequestChecked(req: string, now: int, conf: Config, entropy: Entropy, quote: string,
                                 cache: Cache, json: JsonCodec, hash: Hasher): (out: Outcome)
    ensures ParseMessage(req).Failure? ==> out == Reject(MalformedMessage, cache)
    ensures !out.Hang?
    ensures out.Panic? ==> ParseMessage(req).Success?
    ensures out.Reply? && out.msg.Header == ResponseResource ==>
      exists key :: key in cache && out.cache == cache - {key}
    ensures ParseMessage(req).Success? && out != ProcessRequest(req, now, conf, entropy, quote, cache, json, hash) ==>
      var msg := ParseMessage(req).value;
      msg.Header == RequestResource && ReadStamp(json, msg.Payload).Some?
        && ReadStamp(json, msg.Payload).value.Counter == MaxInt64
  {
    match ParseMessage(req)
    case Failure(_) => Reject(MalformedMessage, cache)
    case Success(msg) =>
      ParsedRequestDispatched(req, msg, now, conf, entropy, quote, cache, json, hash);
      DispatchChecked(msg, now, conf, entropy, quote, cache, json, hash)
  }

  /** With the check in place the same malformed request is refused and
      the cache is untouched. */
  lemma MalformedRequestRefused(now: int, conf: Config, entropy: Entropy, quote: string,
                                cache: Cache, json: JsonCodec, hash: Hasher)
    ensures ProcessRequestChecked("hello", now, conf, entropy, quote, cache, json, hash) == Reject(MalformedMessage, cache)
  {
    HelloIsMalformed();
  }

  /** As written, a known, recent stamp that claims counter `MaxInt64` and
      more zeros than a SHA-1 hex digest (40 characters) can hold makes the
      handler loop forever. */
  lemma MaximalCounterHangs(req: string, msg: Message, now: int, conf: Config, entropy: Entropy, quote: string,
                            cache: Cache, json: JsonCodec, hash: Hasher, h: Hashcash)
    requires ParseMessage(req) == Success(msg) && msg.Header == RequestResource
    requires ReadStamp(json, msg.Payload) == Some(h) && ChallengeKey(h) in cache && Fresh(h, now, conf)
    requires h.Counter == MaxInt64 && h.ZerosCount == 41
    requires forall text :: |hash(text)| == 40
    ensures ProcessRequest(req, now, conf, entropy, quote, cache, json, hash) == Hang
  {
    NoCounterBeatsDigestLength(hash, h);
    ResourceRequestDispatched(msg, now, conf, entropy, quote, cache, json, hash);
    ParsedRequestDispatched(req, msg, now, conf, entropy, quote, cache, json, hash);
  }

  /** A difficulty longer than every digest is met at no counter. */
  lemma NoCounterBeatsDigestLength(hash: Hasher, h: Hashcash)
    requires h.ZerosCount >= 0 && forall text :: |hash(text)| < h.ZerosCount
    ensures !Solvable(hash, h)
  {
    forall c | InInt64(c)
      ensures !PassesAt(hash, h, c)
    {
      var d := hash(ProofOfWork.Stringify(h.(Counter := c)));
      assert |d| < h.ZerosCount;
    }
  }

  /** With the claimed counter checked alone, the same request is refused
      and the cache is untouched. */
  lemma MaximalCounterRefused(req: string, msg: Message, now: int, conf: Config, entropy: Entropy, quote: string,
                              cache: Cache, json: JsonCodec, hash: Hasher, h: Hashcash)
    requires ParseMessage(req) == Success(msg) && msg.Header == RequestResource
    requires ReadStamp(json, msg.Payload) == Some(h) && ChallengeKey(h) in cache && Fresh(h, now, conf)
    requires h.Counter == MaxInt64 && h.ZerosCount == 41
    requires forall text :: |hash(text)| == 40
    ensures ProcessRequestChecked(req, now, conf, entropy, quote, cache, json, hash) == Reject(InvalidHashcash, cache)
  {
    MaximalCounterHangs(req, msg, now, conf, entropy, quote, cache, json, hash, h);
  }

  // -----------------------------------------------------------------------
  // A third defect: the start-up test entry is a redeemable key

  /** As written, the connection test leaves the key `"key"` in the store, and
      a stamp with salt `"key"`, an empty resource, a recent date and zero
      difficulty was never issued yet buys the quote without any work. */
  lemma StartupKeyGranted(req: string, msg: Message, now: int, conf: Config, entropy: Entropy, quote: string,
                          json: JsonCodec, hash: Hasher, h: Hashcash)
    requires ParseMessage(req) == Success(msg) && msg.Header == RequestResource
    requires ReadStamp(json, msg.Payload) == Some(h)
    requires h.Rand == StartupKey && h.Resource == "" && h.ZerosCount == 0 && Fresh(h, now, conf)
    ensures ProcessRequest(req, now, conf, entropy, quote, InitialCache(), json, hash)
         == Reply(Message(ResponseResource, "", quote), {})
  {
    StartupStampAccepted(msg.Payload, now, conf, quote, json, hash, h);
    ResourceRequestDispatched(msg, now, conf, entropy, quote, InitialCache(), json, hash);
    ParsedRequestDispatched(req, msg, now, conf, entropy, quote, InitialCache(), json, hash);
  }

  /** The grant step of `StartupKeyGranted`. */
  lemma StartupStampAccepted(payload: string, now: int, conf: Config, quote: string,
                             json: JsonCodec, hash: Hasher, h: Hashcash)
    requires ReadStamp(json, payload) == Some(h)
    requires h.Rand == StartupKey && h.Resource == "" && h.ZerosCount == 0 && Fresh(h, now, conf)
    ensures GrantResource(payload, now, conf, quote, InitialCache(), json, hash)
         == Reply(Message(ResponseResource, "", quote), {})
  {
    var c := InitialCache();
    assert c == {StartupKey} && ChallengeKey(h) == StartupKey;
    assert c - {ChallengeKey(h)} == {};
    ZeroDifficultyAlwaysPasses(hash(ProofOfWork.Stringify(h)));
    GrantAccepted(payload, h, now, conf, quote, c, json, hash);
  }

  /** From a store that holds no stamp's key, no request at all buys the
      quote: a grant needs a key that an earlier challenge put there. */
  lemma NoGrantFromCleanStart(req: string, now: int, conf: Config, entropy: Entropy, quote: string,
                              json: JsonCodec, hash: Hasher)
    ensures var out := ProcessRequestChecked(req, now, conf, entropy, quote, InitialCacheChecked(), json, hash);
      !(out.Reply? && out.msg.Header == ResponseResource)
  {
  }

  /** With the clean store, the never-issued stamp above is refused as
      unknown. */
  lemma StartupKeyRefused(req: string, msg: Message, now: int, conf: Config, entropy: Entropy, quote: string,
                          json: JsonCodec, hash: Hasher, h: Hashcash)
    requires ParseMessage(req) == Success(msg) && msg.Header == RequestResource
    requires ReadStamp(json, msg.Payload) == Some(h)
    requires h.Rand == StartupKey && h.Resource == "" && h.ZerosCount == 0 && Fresh(h, now, conf)
    ensures ProcessRequestChecked(req, now, conf, entropy, quote, InitialCacheChecked(), json, hash)
         == Reject(ChallengeUnknown, {})
  {
    assert ChallengeKey(h) !in InitialCacheChecked();
    CheckedRequestDispatched(req, msg, now, conf, entropy, quote, InitialCacheChecked(), json, hash);
  }

  /** The corrected handler on a parsed resource request is the corrected
      grant. */
  lemma CheckedRequestDispatched(req: string, msg: Message, now: int, conf: Config, entropy: Entropy, quote: string,
                                 cache: Cache, json: JsonCodec, hash: Hasher)
    requires ParseMessage(req) == Success(msg) && msg.Header == RequestResource
    ensures ProcessRequestChecked(req, now, conf, entropy, quote, cache, json, hash)
         == GrantResourceChecked(msg.Payload, now, conf, quote, cache, json, hash)
  {
  }
}

=== FILE: utils.dfy ===
/** The helpers of util/utils.go that belong to the protocol: `SendMsg`,
    which frames a message for the wire, and `GetRandSalt`, which draws the
    random challenge string. Writing to the connection and the random
    generator itself are outside the model: the bytes `SendMsg` would write
    are its result, and the generator's output is a parameter. */
module Utils {
  import opened Wrappers
  import opened GoLib
  import opened Messages
  import Base64

  /** The bytes `SendMsg` writes to the connection: the stringified message
      and exactly one terminating newline, which the decoder's trimming
      removes again. */
  function SendMsg(m: Message): (w: string)
    ensures |w| > 0 && w[|w| - 1] == '\n'
    ensures Split(w, '\n') == Split(Stringify(m), '\n') + [""]
    ensures TrimSpace(w) == TrimSpace(Stringify(m))
  {
    TrimSpaceAppendSpace(Stringify(m), '\n');
    SplitSnoc(Stringify(m), '\n');
    Stringify(m) + "\n"
  }

  /** The terminating newline is invisible to the decoder: a framed message
      decodes exactly like the unframed one, so it comes back intact under
      the same conditions. */
  lemma SendMsgRoundTrip(m: Message)
    ensures ParseMessage(SendMsg(m)) == ParseMessage(Stringify(m))
    ensures ParseMessage(SendMsg(m)) == Success(m) <==> Transmittable(m)
  {
    ParseDependsOnTrimOnly(SendMsg(m), Stringify(m));
    RoundTrip(m);
  }

  /** What a call of `rand.Read` yields: either an error, or the stream of
      bytes the generator produces (`next(i)` is the i-th byte). */
  datatype Entropy = ReadFailure | RandomBytes(next: int -> Base64.byte)

  datatype SaltError = RandReadFailed

  /** The `length` bytes `rand.Read` writes into the buffer. */
  function RandomBuffer(length: nat, next: int -> Base64.byte): (buf: seq<Base64.byte>)
    ensures |buf| == length
  {
    seq(length, i => next(i))
  }

  /** `GetRandSalt`: the first `length` characters of the base64 encoding of
      `length` random bytes. Since the encoding of n bytes has at least n
      alphabet characters, the salt is exactly `length` characters long and
      holds no padding. A failed read is the only error; Go then returns the
      empty string with the error. A negative length makes Go's `make`
      panic, hence the precondition. */
  function GetRandSalt(length: int, entropy: Entropy): (r: Result<string, SaltError>)
    requires length >= 0
    ensures r.Failure? <==> entropy.ReadFailure?
    ensures r.Success? ==> |r.value| == length
    ensures r.Success? ==> r.value <= Base64.Encode(RandomBuffer(length, entropy.next))
    ensures r.Success? ==> forall i :: 0 <= i < |r.value| ==> Base64.IsAlphabetChar(r.value[i]) && r.value[i] != Base64.Padding
  {
    match entropy
    case ReadFailure => Failure(RandReadFailed)
    case RandomBytes(next) =>
      var salt := Base64.Encode(RandomBuffer(length, next));
      Success(salt[..length])
  }
}

=== FILE: wrappers.dfy ===
/** Failure-carrying values shared by the other modules: `Option` for a
    lookup or decode that may produce nothing, `Result` for a Go function
    that returns a value together with an `error`. */
module Wrappers {

  datatype Option<+T> = None | Some(value: T)

  datatype Result<+T, +E> = Success(value: T) | Failure(error: E)
}
